=== FILE: README.md ===
# Unit-test build rules of the Crazyflie test helper

This project models the text-processing rules in `tools/test/rakefile_helper.rb`.
These rules decide what the firmware's unit-test build compiles, links and runs,
and how a test run is judged. Everything is written as pure functions over
strings, lines and configuration values, and Dafny proves their properties.

Modules, following the helper's structure:

- `Text`: the parts of Ruby's string library the helper leans on. This covers
  `split(' ')` and its whitespace class, `Array#index`, substring search, and
  a flat-map used for line-by-line scans.
- `Headers`: `extract_headers`. It has the `#include "x.h"` recogniser and the
  `// @MODULE "x.c"` recogniser, with the greedy `.+` captures of their
  regular expressions written out in closed form.
- `Markers`: the `@IGNORE_IF_NOT` and `@BUILD_LIB` token scanners and
  `exclude_test_files`. A marker that occurs on a line but is not a token of
  its own makes the source raise (`nil + 2`); the model returns an error there.
- `Args`: `extract_defines` and the three `find_*_in_args` lookups.
- `Paths`: `find_file`, `find_source_file` and `get_local_include_dirs`. It
  also covers the parts of Ruby's `File.extname`, `File.basename(path, '.c')`
  and Rake's `String#ext` they use. The file system is a set of existing paths.
- `Quoting`: `tackit`, `squash` and the include-path backslash cleanup. Their
  partner is `Words`, a reader for the fragment of the POSIX shell language
  these strings stay in. It reads a command line back into the words the
  compiler receives.
- `Commands`: the compile, link and simulator command lines. These are
  proved to reach the tool as the intended words, in order.
- `Results`: `chomp`, the `/OK$/m` verdict and the result-file name.
- `TestPlan`: one test's build as `run_tests` performs it. That is the run's
  define and option additions, the mock requests, header sources, library
  groups, runner and object list. It also covers the choice of tests in
  `parse_and_run_tests`.

The configuration (`$cfg`) is an immutable value: the `Compiler`, `Linker`,
`Simulator` and `LibGroup` records. Fields the source checks for nil are
`Option`s. Fields it uses unchecked are required. A file is a path and its
lines without line breaks.

## Model

| member | source | states |
|---|---|---|
| Text.Tokens | tools/test/rakefile_helper.rb:345 | `split(' ')`: every token is a non-empty run without whitespace, and there are no more tokens than characters; Text.TokensOfSpaceJoin is its round trip |
| Text.TokensOfSpaceJoin | tools/test/rakefile_helper.rb:365 | splitting a space-joined list of tokens on whitespace gives the list back |
| Text.IndexOf | tools/test/rakefile_helper.rb:366 | the index found holds the element and no earlier element equals it; nil when none does |
| Headers.NameSpan | tools/test/rakefile_helper.rb:44 | the capture span is the match the backtracking engine prefers (longest leading blanks, then the last `.h`/`.H` before optional blanks and a quote); nil exactly when no span matches |
| Headers.IncludeName | tools/test/rakefile_helper.rb:44 | a captured include name ends in a dot and `h` or `H` |
| Headers.ModuleHeader | tools/test/rakefile_helper.rb:52-56 | a `@MODULE` capture becomes a name ending in `.h` |
| Headers.LineHeaders | tools/test/rakefile_helper.rb:42-57 | a line gives at most one name: its include name unless the line mentions `@NO_MODULE`, or its module header regardless of `@NO_MODULE`; empty exactly when neither applies |
| Headers.OpeningsExclusive | tools/test/rakefile_helper.rb:44-52 | no line opens both an include and a `@MODULE` annotation |
| Headers.ExtractHeaders | tools/test/rakefile_helper.rb:39-60 | at most one name per line; what each name is and where it comes from is stated by Headers.LineHeaders, Headers.HeadersEndInH and Headers.ExtractHeadersAppend |
| Headers.ExtractHeadersAppend | tools/test/rakefile_helper.rb:39-60 | names follow line order: the list of two runs of lines is the first's list then the second's |
| Headers.HeadersEndInH | tools/test/rakefile_helper.rb:39-60 | every listed name ends in `.h` or `.H` and comes from one of the file's lines |
| Headers.IncludeLineRoundTrip | tools/test/rakefile_helper.rb:44-48 | the line `#include "n"` for a header name `n` contributes exactly `n` |
| Headers.ModuleLineRoundTrip | tools/test/rakefile_helper.rb:52-56 | `// @MODULE "stem.c"` (or `.C`) contributes `stem.h` with a lower-case `h` |
| Markers.MarkerOnLine | tools/test/rakefile_helper.rb:364-369 | absent iff the text does not occur; malformed iff it occurs but is not a token; otherwise the token after its first token occurrence, if any |
| Markers.LineIgnores | tools/test/rakefile_helper.rb:364-374 | a line raises iff its marker is malformed, and ignores the file iff the token after the marker names no define |
| Markers.IgnoreFile | tools/test/rakefile_helper.rb:360-379 | an ignored file has a line with an unmet condition; a raising scan has a malformed line; a file whose every line neither raises nor ignores is kept. Markers.IgnoreFileIgnoredSpec and Markers.IgnoreFileRaisesSpec give both directions |
| Markers.IgnoreFileIgnoredSpec | tools/test/rakefile_helper.rb:360-379 | a file is ignored iff some line carries an unmet condition and no earlier line raises |
| Markers.IgnoreFileRaisesSpec | tools/test/rakefile_helper.rb:360-379 | the scan raises iff some line is malformed and no earlier line carries an unmet condition |
| Markers.MoreDefinesKeep | tools/test/rakefile_helper.rb:360-379 | with more defines a kept file stays kept and a raising scan still raises |
| Markers.ConditionLineDecides | tools/test/rakefile_helper.rb:363-374 | a one-line file `// @IGNORE_IF_NOT c` is ignored exactly when `c` is not a define |
| Markers.ExcludeTestFiles | tools/test/rakefile_helper.rb:348-352 | succeeds iff every scan does; keeps exactly the files not ignored, as an order-preserving subsequence |
| Markers.ExcludeCounts | tools/test/rakefile_helper.rb:348-352 | a kept file occurs in the result as often as in the input, and a dropped one not at all |
| Markers.ExcludeMonotone | tools/test/rakefile_helper.rb:348-352 | every file kept with fewer defines is kept with more |
| Markers.LineLibs | tools/test/rakefile_helper.rb:390-396 | a line names a library iff `@BUILD_LIB` is a token with a token after it, and the id is that next token |
| Markers.ReadLibAnnotations | tools/test/rakefile_helper.rb:385-401 | raises iff some line's marker is malformed; at most one id per line |
| Markers.LibAnnotationsByLine | tools/test/rakefile_helper.rb:385-401 | without malformed lines the ids are the per-line ids in line order |
| Markers.LibAnnotationsAppend | tools/test/rakefile_helper.rb:385-401 | the ids of two runs of lines are the first's then the second's |
| Args.DefineNames | tools/test/rakefile_helper.rb:345 | every name comes from a `-D` token and every `-D` token gives its name |
| Args.DefineNamesAppend | tools/test/rakefile_helper.rb:345 | defines keep token order |
| Args.ExtractDefines | tools/test/rakefile_helper.rb:344-346 | every name is a `-D` token of the argument without its flag, every `-D` token gives its name, and there are no more names than tokens; Args.ExtractDefinesRoundTrip is its round trip |
| Args.ExtractDefinesRoundTrip | tools/test/rakefile_helper.rb:344-346 | writing names as space-separated `-D` flags and extracting them gives the names back |
| Args.ArgPayload | tools/test/rakefile_helper.rb:316-319 | nil iff no argument starts with the key; otherwise the text after the key in the first one that does |
| Args.FindInArgs | tools/test/rakefile_helper.rb:314-342 | as written: when no argument starts with the key, the result is the whole argument list; otherwise it is the payload of the first argument that does, read by `split` or `extract_defines` |
| Args.FindInArgsCorrected | tools/test/rakefile_helper.rb:314-342 | as intended: the empty list when no argument carries the key, the written result otherwise |
| Args.LookupUsesFirstMatch | tools/test/rakefile_helper.rb:316-319 | arguments after the first one carrying the key change nothing |
| Args.FallThroughTakesArgsAsFiles | tools/test/rakefile_helper.rb:314-342 | `["DEFINES=-DX"]` is taken for a test-file list, and `["FILES=test_a.c"]` for a define list |
| Paths.FindFile | tools/test/rakefile_helper.rb:66-74 | nil iff no `dir + name` exists; otherwise `dir + name` for the first such dir |
| Paths.FindFileFirst | tools/test/rakefile_helper.rb:66-74 | the first existing candidate is found; no later dir shadows it |
| Paths.FindFileAppend | tools/test/rakefile_helper.rb:66-74 | dirs appended to the list matter only when nothing is found in the others |
| Paths.LocalIncludeDirs | tools/test/rakefile_helper.rb:33-37 | keeps exactly the plain-string include items |
| Paths.LocalIncludeDirsOne | tools/test/rakefile_helper.rb:35 | a string item is kept and a list item dropped |
| Paths.LocalIncludeDirsAppend | tools/test/rakefile_helper.rb:33-37 | the items kept keep their order: the dirs of two runs of items are the first's then the second's |
| Paths.ExtName | tools/test/rakefile_helper.rb:63 | the extension is empty or a dot followed by no slash and no dot; a non-empty one occurs in the path, not at its start, with only slashes after it (the tail of the last component). Paths.ExtNameOfHeader, Paths.ExtNameNoDot and Paths.ExtNameDotFile pin its value |
| Paths.ExtNameOfHeader | tools/test/rakefile_helper.rb:63 | the extension of `stem.x` is `.x` |
| Paths.ExtNameNoDot | tools/test/rakefile_helper.rb:63 | a path without a dot has no extension |
| Paths.ExtNameDotFile | tools/test/rakefile_helper.rb:63 | the dots leading a file name are no extension: `.name` has none |
| Paths.FindSourceFile | tools/test/rakefile_helper.rb:62-64 | nil iff no include dir holds the header's source name; otherwise that name in the first dir that does |
| Paths.SourceName | tools/test/rakefile_helper.rb:62-64 | `.` and `..` are kept; any other name ends in `.c` |
| Paths.SourceNameOfHeader | tools/test/rakefile_helper.rb:62-64 | the source of `stem.h` is `stem.c` |
| Paths.FindSourceOfHeader | tools/test/rakefile_helper.rb:62-64 | `find_source_file` on `stem.h` looks for `stem.c` in the same dirs |
| Paths.BaseName | tools/test/rakefile_helper.rb:112 | the base name holds no slash (or is `/`) and is empty only for the empty path |
| Paths.BaseNameOfSource | tools/test/rakefile_helper.rb:112 | the base name of `dir/stem.c` is `stem` |
| Quoting.Tackit | tools/test/rakefile_helper.rb:76-87 | lists, and strings with whitespace whose no line starts with `-`, are quoted; everything else is unchanged |
| Quoting.Squash | tools/test/rakefile_helper.rb:89-93 | empty iff there are no items; otherwise starts with a blank |
| Quoting.SquashAppend | tools/test/rakefile_helper.rb:89-93 | squashing two lists is squashing each in turn |
| Quoting.WordsOfSquash | tools/test/rakefile_helper.rb:89-93 | the shell reads a squashed list as exactly the prefixed items, in order |
| Quoting.DashLedOptionSplits | tools/test/rakefile_helper.rb:80-81 | an option holding a blank is not quoted, so the shell splits it into two words |
| Quoting.Cleanup | tools/test/rakefile_helper.rb:104 | the cleanup never lengthens the include list; Quoting.CleanupDeletesOnlySlashes, Quoting.CleanupKeepsSlashFree and Quoting.CleanupOfSquash state what it removes |
| Quoting.CleanupDeletesOnlySlashes | tools/test/rakefile_helper.rb:104 | the three substitutions delete backslashes and nothing else: every other character keeps its count |
| Quoting.CleanupKeepsSlashFree | tools/test/rakefile_helper.rb:104 | text without backslashes passes the cleanup unchanged |
| Quoting.StripKeepsQuoting | tools/test/rakefile_helper.rb:76-87 | dropping a trailing backslash does not change whether a value is quoted |
| Quoting.CleanupOfSquash | tools/test/rakefile_helper.rb:103-104 | cleaning a squashed include list is squashing the dirs without their trailing backslash |
| Commands.DefinesText | tools/test/rakefile_helper.rb:97-101 | nil define items give no defines; otherwise the squashed items |
| Commands.CompileCommand | tools/test/rakefile_helper.rb:108-115 | the object returned is the source's base name with the object extension, and the command ends with it |
| Commands.IncludesRead | tools/test/rakefile_helper.rb:103-104 | the cleaned include list reads as the prefixed dirs |
| Commands.CompileWords | tools/test/rakefile_helper.rb:95-115 | the compiler receives its path, the prefixed defines, the options then the extra options, the prefixed include dirs, the source and the prefixed object |
| Commands.LinkCommand | tools/test/rakefile_helper.rb:117-141 | the command starts with the linker path and ends with the output prefix, the executable and the options; Commands.LinkWords gives all its words |
| Commands.LinkObjectsSquashed | tools/test/rakefile_helper.rb:136 | the object list is each object after the object path, in list order |
| Commands.LinkWords | tools/test/rakefile_helper.rb:117-141 | the linker receives its path, the include dirs, every object in list order, the output prefix, the executable and the options |
| Commands.RunCommand | tools/test/rakefile_helper.rb:272-277 | without a simulator the command is the executable itself; with one it is longer; Commands.RunWords gives its words |
| Commands.RunWords | tools/test/rakefile_helper.rb:143-161 | under a simulator the test receives the simulator path, the pre-support words, the executable and the post-support words |
| Results.Chomp | tools/test/rakefile_helper.rb:165 | removes exactly one trailing `\n`, `\r\n` (both characters) or `\r`, and nothing else |
| Results.FindOk | tools/test/rakefile_helper.rb:280 | finds an `OK` before a line break or the end iff the output passes, and the first such |
| Results.ResultFile | tools/test/rakefile_helper.rb:278-285 | the result file is build path + test base + `.testpass` iff the chomped output passes and + `.testfail` otherwise, and holds the chomped output |
| Results.PassesAfterChomp | tools/test/rakefile_helper.rb:165 | a passing output still passes once chomped |
| Results.OkLastLinePasses | tools/test/rakefile_helper.rb:280 | output whose last line is `OK` passes |
| Results.NoOkFails | tools/test/rakefile_helper.rb:280 | output without `OK` fails |
| Results.CarriageReturnNeedsChomp | tools/test/rakefile_helper.rb:165 | `OK\r\n` fails as it is and passes after the chomp |
| TestPlan.RunCompiler | tools/test/rakefile_helper.rb:201-213 | the define items become the configured ones (nil as none), `TEST`, then the command-line defines; the options are kept in order and the minimal style appends `-w` after them; nothing else changes |
| TestPlan.RunDefineWords | tools/test/rakefile_helper.rb:203-205 | the run's define words are the configured ones, then `TEST`, then one per command-line define |
| TestPlan.CommandLineDefinesReachCompiler | tools/test/rakefile_helper.rb:203-205 | a `DEFINES=-DA -DB` argument to `parse_and_run_tests` puts `A` and `B` after `TEST` in the define items |
| TestPlan.RemoveAllAbsent | tools/test/rakefile_helper.rb:227 | removing a pattern that does not occur changes nothing |
| TestPlan.MockNameOf | tools/test/rakefile_helper.rb:227 | `mock_<name>` gives back `<name>` |
| TestPlan.MockRequest | tools/test/rakefile_helper.rb:226-233 | a header asks for a mock iff its name holds `mock_` |
| TestPlan.MockOfHeader | tools/test/rakefile_helper.rb:226-228 | `mock_<name>` asks for a mock of `<name>` as found in the include dirs |
| TestPlan.NoMockHeadersNoMocks | tools/test/rakefile_helper.rb:224-236 | a header list without `mock_` names asks for no mocks |
| TestPlan.CMockNotMocked | tools/test/rakefile_helper.rb:222 | `cmock.h` does not hold `mock_` |
| TestPlan.MocksOfHeaderList | tools/test/rakefile_helper.rb:222-236 | appending `cmock.h` asks for no further mock |
| TestPlan.HeaderSource | tools/test/rakefile_helper.rb:240-244 | a header adds a compile iff its source is found |
| TestPlan.HeaderSourcesAppend | tools/test/rakefile_helper.rb:238-245 | header sources follow header order: those of two runs of headers are the first's then the second's |
| TestPlan.HeaderSourcesFound | tools/test/rakefile_helper.rb:238-245 | every header source compiled exists and is an include dir plus the source name of a listed header |
| TestPlan.LibError | tools/test/rakefile_helper.rb:408-412 | a library id raises unless its group exists, has files, and has extra options when it has any files |
| TestPlan.GroupCompiles | tools/test/rakefile_helper.rb:410-412 | one compile per file of the group, in order, each with the group's options |
| TestPlan.LibCompiles | tools/test/rakefile_helper.rb:403-416 | succeeds iff every id is usable; otherwise fails with the error of the first id that is not |
| TestPlan.LibCompilesFrom | tools/test/rakefile_helper.rb:403-416 | every library compile is a file of a named group, with that group's extra options |
| TestPlan.LibCompilesAppend | tools/test/rakefile_helper.rb:403-416 | the compiles of two runs of ids are the first's then the second's |
| TestPlan.OneLibCompiles | tools/test/rakefile_helper.rb:405-413 | one usable id compiles its group's files in order |
| TestPlan.RunnerPath | tools/test/rakefile_helper.rb:252-260 | the runner is the runner path, or the build path when none is configured, followed by `<base>_Runner.c` |
| TestPlan.Objects | tools/test/rakefile_helper.rb:238-265 | one object per compile, in order, each the one its compile returns |
| TestPlan.PlanTest | tools/test/rakefile_helper.rb:218-268 | a malformed `@BUILD_LIB` line or an unusable library stops the build. Otherwise: mocks come from the file's own headers, the runner is generated iff no runner path is set, the runner then the test are compiled last, and the objects follow compile order |
| TestPlan.PlanCompilesExactly | tools/test/rakefile_helper.rb:238-268 | ahead of the runner and the test a planned test compiles exactly the header sources found for its listed headers, with no extra options, and the files of the library groups it names, with their options |
| TestPlan.HeaderSourceLinked | tools/test/rakefile_helper.rb:238-244 | every listed header whose `.c` file is found has that file compiled without extra options ahead of the runner, and its object is linked |
| TestPlan.LibCompilesHas | tools/test/rakefile_helper.rb:403-416 | the library compiles hold every file of every group named, with that group's extra options |
| TestPlan.LibFileLinked | tools/test/rakefile_helper.rb:248-249 | every file of every library group the test names is compiled with the group's extra options ahead of the runner, and its object is linked |
| TestPlan.PlainTestLinksTwoObjects | tools/test/rakefile_helper.rb:238-265 | a test without libraries or header sources links exactly the runner's object and its own |
| TestPlan.SelectTests | tools/test/rakefile_helper.rb:184-195 | tests named by `FILES=` are run as given; otherwise exactly the discovered files the defines do not exclude, or the scan's error |
| TestPlan.SelectTestsAsWritten | tools/test/rakefile_helper.rb:184-195 | the same choice built on the lookups as written; when the `FILES=` lookup gives no files, exactly the discovered files the defines keep are selected |
| TestPlan.DefinesArgTakenForTest | tools/test/rakefile_helper.rb:184-195 | as written, `parse_and_run_tests(["DEFINES=-DX"])` selects `["DEFINES=-DX"]` as the test list and skips discovery, so `run_tests` then tries to read a test file of that name (line 41); as intended, only discovered files are selected |
| TestPlan.NamedLookup | tools/test/rakefile_helper.rb:314-320 | the `FILES=` payload of the first argument carrying the key is its token list |
| TestPlan.NamedTestsWin | tools/test/rakefile_helper.rb:184-195 | named test files are run as given, whatever arguments follow |

## Left out

- Process execution (`execute`: backticks, `$?.exitstatus`, raising on failure, logging). Commands are built as strings, and the run's output is a parameter.
- `load_configuration`, `configure_clean` and `configure_toolchain`. These are YAML loading and Rake plumbing. The configuration is an explicit value.
- `get_unit_test_files`: `FileList` globbing. The discovered test files are a parameter of `TestPlan.SelectTests`.
- CMock's `setup_mocks`, `UnityTestRunnerGenerator` and `report_summary`/`UnityTestSummary`: code outside this file. The model records what is handed to them: the mock requests and whether a runner is generated.
- Reading and writing files (`File.readlines`, `File.foreach`, `File.open`), `puts`, `report` and colour output. File contents are given as lines; the result file is given as its path and contents.
- `build_application`: it repeats the header-source and link logic of `run_tests` without tests, mocks or libraries, and is otherwise I/O.
- The `defines` parameter of `compile`: the source never reads it.
- Configuration values the source uses without a nil check are required fields, so the `NoMethodError` a missing one raises is not modelled. The exceptions are the library groups and their `files`/`extra_options`, which become errors.
- `$logCmd`: it only switches logging.
- Windows paths and case-insensitive file systems. `File.basename` and `File.extname` follow their Unix behaviour.
- Quoting.Words: it reads only double quotes and blanks. Lemmas about command lines require values free of other characters the shell interprets (`$`, backquote, backslash, `'`, globbing, redirection and separators). It therefore does not say how the shell treats such values.
- Text.Tokens: Ruby's whitespace class is taken as space, tab, line feed, vertical tab, form feed and carriage return. Non-ASCII whitespace, which `split(' ')` does not treat as a separator either, is not special.
- TestPlan.PlanTest: `files` is the set of files that exist when header sources are looked up (line 241), after CMock has written the mocks (line 233). The model does not derive that set from the mocks it requests.
- The Ruby version. The model follows Ruby 2.7 to 3.1; from 2.7 on, `File.extname` of a name ending in a dot is `.`. `find_file` (line 69) calls `File.exists?`, which Ruby 3.2 removed; there every lookup over a non-empty directory list raises `NoMethodError`, so Paths.FindFile, Paths.FindSourceFile and TestPlan.MockRequest describe 2.7 to 3.1 only.
- Text encodings. Lines and arguments are sequences of characters. A line that is not valid in the default external encoding (a Latin-1 comment under a UTF-8 locale, say) makes `match` (lines 44 and 52) and `split(' ')` (lines 345, 365 and 391) raise `ArgumentError`; that error path is not modelled.
- A test file that does not exist. `extract_headers` reads the test with `File.readlines` (line 41), which raises `Errno::ENOENT` for a missing file and ends the run; TestPlan.PlanTest takes the test's lines as given, so this abort is not modelled.
- Quoting.Item: a configuration entry is a string or a flat list of strings. Deeper YAML nesting, which `strings.join` (line 79) flattens, and non-string scalars, which interpolation turns into text with `to_s`, are not modelled.
- Lines hold no line break. The recognisers are line-anchored and never look past one line's end, so `^` at an inner line start is not modelled.

## Findings

| source | as written | input that shows it | evidently intended | confidence | as-written member | corrected member |
|---|---|---|---|---|---|---|
| tools/test/rakefile_helper.rb:314-342 | when no argument starts with the key, `args.each` ends the method and returns the whole argument list | `parse_and_run_tests(["DEFINES=-DX"])`: `find_test_files_in_args` returns `["DEFINES=-DX"]`, so test discovery is skipped and `run_tests` calls `File.readlines("DEFINES=-DX")` (line 41), which without such a file raises `Errno::ENOENT` before anything is compiled; `parse_and_run_tests(["FILES=test_a.c"])` likewise appends `FILES=test_a.c` to the compiler's defines. From `rake unit DEFINES=-DX` this follows only if the Rakefile passes just the `VAR=value` arguments, and the Rakefile is not part of this model | an empty list when the key is absent (the caller tests `test_files.length == 0`) | medium, not executed | Args.FindInArgs, with Args.FallThroughTakesArgsAsFiles and TestPlan.DefinesArgTakenForTest | Args.FindInArgsCorrected, used by TestPlan.SelectTests |

=== FILE: args.dfy ===
/**
  Command-line argument parsing: `extract_defines` and the three
  `find_*_in_args` lookups, each of which returns the payload of the FIRST
  argument that starts with its key.

  As written, a lookup whose key no argument carries falls out of
  `args.each`, whose value is the receiver, so the whole argument list
  comes back (`FindInArgs`). `FindInArgsCorrected` returns the empty list
  there instead, which is what the callers evidently expect.
 */
module Args {
  import opened Wrappers
  import opened Text

  const FilesKey: string := "FILES="
  const StyleKey: string := "UNIT_TEST_STYLE="
  const DefinesKey: string := "DEFINES="
  const DefineFlag: string := "-D"

  /** The three lookups of the source. */
  datatype ArgKey = Files | OutputStyle | Defines {
    function Text(): string {
      match this
      case Files => FilesKey
      case OutputStyle => StyleKey
      case Defines => DefinesKey
    }
  }

  /** The define names of a token list: each token that starts with `-D`,
      without those two characters, in order. */
  function DefineNames(toks: seq<string>): (r: seq<string>)
    ensures |r| <= |toks|
    ensures forall i :: 0 <= i < |r| ==> DefineFlag + r[i] in toks
    ensures forall t :: t in toks && StartsWith(t, DefineFlag) ==> t[2..] in r
  {
    if toks == [] then []
    else
      var rest := DefineNames(toks[1..]);
      if StartsWith(toks[0], DefineFlag) then
        assert DefineFlag + toks[0][2..] == toks[0];
        [toks[0][2..]] + rest
      else rest
  }

  /** `extract_defines`: the names of the `-D` flags of a flag string. */
  function ExtractDefines(arg: string): (r: seq<string>)
    ensures |r| <= |Tokens(arg)|
    ensures forall i :: 0 <= i < |r| ==> DefineFlag + r[i] in Tokens(arg)
    ensures forall t :: t in Tokens(arg) && StartsWith(t, DefineFlag) ==> t[2..] in r
  {
    DefineNames(Tokens(arg))
  }

  /** The define names of two token lists are those of the first, then
      those of the second. */
  lemma {:induction false} DefineNamesAppend(a: seq<string>, b: seq<string>)
    ensures DefineNames(a + b) == DefineNames(a) + DefineNames(b)
  {
    if a == [] {
      assert a + b == b;
    } else {
      assert (a + b)[1..] == a[1..] + b;
      DefineNamesAppend(a[1..], b);
    }
  }

  /** The `-D` flag of each name. */
  function DefineFlags(names: seq<string>): (r: seq<string>)
    ensures |r| == |names|
    ensures forall i :: 0 <= i < |r| ==> r[i] == DefineFlag + names[i]
  {
    if names == [] then [] else [DefineFlag + names[0]] + DefineFlags(names[1..])
  }

  /** Writing names as space-separated `-D` flags and extracting the
      defines gives back the names. */
  lemma {:induction false} ExtractDefinesRoundTrip(names: seq<string>)
    requires forall i :: 0 <= i < |names| ==> !HasSpace(names[i])
    ensures ExtractDefines(SpaceJoin(DefineFlags(names))) == names
  {
    var flags := DefineFlags(names);
    forall k | 0 <= k < |flags|
      ensures IsToken(flags[k])
    {
      assert flags[k] == DefineFlag + names[k];
      assert forall i :: 2 <= i < |flags[k]| ==> flags[k][i] == names[k][i - 2];
    }
    TokensOfSpaceJoin(flags);
    DefineNamesOfFlags(names);
  }

  lemma {:induction false} DefineNamesOfFlags(names: seq<string>)
    ensures DefineNames(DefineFlags(names)) == names
  {
    if names != [] {
      DefineNamesOfFlags(names[1..]);
      var flags := DefineFlags(names);
      assert flags[0] == DefineFlag + names[0];
      assert StartsWith(flags[0], DefineFlag);
      assert flags[0][2..] == names[0];
      assert flags[1..] == DefineFlags(names[1..]);
    }
  }

  /** `a` is the first argument that starts with `key`. */
  ghost predicate FirstWithKey(args: seq<string>, key: string, i: int) {
    && 0 <= i < |args|
    && StartsWith(args[i], key)
    && forall j :: 0 <= j < i ==> !StartsWith(args[j], key)
  }

  /** The text after `key` in the first argument that starts with it. */
  function ArgPayload(args: seq<string>, key: string): (o: Option<string>)
    ensures o.None? <==> forall i :: 0 <= i < |args| ==> !StartsWith(args[i], key)
    ensures o.Some? ==> exists i :: FirstWithKey(args, key, i) && o.value == args[i][|key|..]
  {
    if args == [] then None
    else if StartsWith(args[0], key) then
      assert FirstWithKey(args, key, 0);
      Some(args[0][|key|..])
    else
      var o := ArgPayload(args[1..], key);
      assert o.Some? ==> exists i :: FirstWithKey(args, key, i) && o.value == args[i][|key|..] by {
        if o.Some? {
          var i :| FirstWithKey(args[1..], key, i) && o.value == args[1..][i][|key|..];
          assert FirstWithKey(args, key, i + 1);
        }
      }
      o
  }

  /** How a lookup reads its payload: defines through `extract_defines`,
      the others by `split(' ')`. */
  function ReadPayload(key: ArgKey, payload: string): seq<string> {
    if key == Defines then ExtractDefines(payload) else Tokens(payload)
  }

  /** `find_test_files_in_args`, `find_output_style_in_args` and
      `find_defines_in_args` as written: without a matching argument, the
      argument list itself comes back. */
  function FindInArgs(args: seq<string>, key: ArgKey): (r: seq<string>)
    ensures (forall i :: 0 <= i < |args| ==> !StartsWith(args[i], key.Text())) ==> r == args
    ensures (exists i :: 0 <= i < |args| && StartsWith(args[i], key.Text())) ==>
      exists i :: FirstWithKey(args, key.Text(), i) && r == ReadPayload(key, args[i][|key.Text()|..])
  {
    match ArgPayload(args, key.Text())
    case None => args
    case Some(p) => ReadPayload(key, p)
  }

  /** The lookups as evidently intended: no matching argument, no values. */
  function FindInArgsCorrected(args: seq<string>, key: ArgKey): (r: seq<string>)
    ensures (forall i :: 0 <= i < |args| ==> !StartsWith(args[i], key.Text())) ==> r == []
    ensures (exists i :: 0 <= i < |args| && StartsWith(args[i], key.Text())) ==> r == FindInArgs(args, key)
  {
    match ArgPayload(args, key.Text())
    case None => []
    case Some(p) => ReadPayload(key, p)
  }

  /** With a payload found, the intended lookup reads it. */
  lemma CorrectedReadsPayload(args: seq<string>, key: ArgKey, p: string)
    requires ArgPayload(args, key.Text()) == Some(p)
    ensures FindInArgsCorrected(args, key) == ReadPayload(key, p)
  {
  }

  /** The payload of a list that carries the key is unchanged by appending
      further arguments. */
  lemma {:induction false} ArgPayloadAppend(args: seq<string>, later: seq<string>, key: string)
    requires exists i :: 0 <= i < |args| && StartsWith(args[i], key)
    ensures ArgPayload(args + later, key) == ArgPayload(args, key)
  {
    var j :| 0 <= j < |args| && StartsWith(args[j], key);
    assert (args + later)[0] == args[0];
    if !StartsWith(args[0], key) {
      assert StartsWith(args[1..][j - 1], key);
      ArgPayloadAppend(args[1..], later, key);
      assert (args + later)[1..] == args[1..] + later;
    }
  }

  /** Only the first argument carrying the key counts: arguments after it
      change nothing. */
  lemma LookupUsesFirstMatch(args: seq<string>, later: seq<string>, key: ArgKey)
    requires exists i :: 0 <= i < |args| && StartsWith(args[i], key.Text())
    ensures FindInArgs(args + later, key) == FindInArgs(args, key)
    ensures FindInArgsCorrected(args + later, key) == FindInArgsCorrected(args, key)
  {
    ArgPayloadAppend(args, later, key.Text());
  }

  /** As written, an argument list without `FILES=` is taken for the list
      of test files: `["DEFINES=-DX"]` names one test file, so test
      discovery is skipped; and without `DEFINES=`, `["FILES=test_a.c"]` is
      taken for a list of defines. */
  lemma FallThroughTakesArgsAsFiles()
    ensures FindInArgs(["DEFINES=-DX"], Files) == ["DEFINES=-DX"]
    ensures FindInArgs(["FILES=test_a.c"], Defines) == ["FILES=test_a.c"]
  {
    assert "DEFINES=-DX"[..6][0] != FilesKey[0];
    assert "FILES=test_a.c"[..8][0] != DefinesKey[0];
  }

  /** `output_style.include?('min')`: the minimal output style was asked for. */
  predicate MinimalStyle(style: seq<string>) {
    "min" in style
  }
}

=== FILE: commands.dfy ===
/**
  The command lines the test build runs, built from the configuration as
  strings: `compile` (with `build_compiler_fields`), `link_it` (with
  `build_linker_fields`) and the test-run command (with
  `build_simulator_fields`). Running them is left out; what is modelled is
  the text, and the words a shell makes of it.

  The configuration is an explicit value. Sections the source tests for nil
  are `Option`s; values it uses unchecked are plain fields.
 */
module Commands {
  import opened Wrappers
  import opened Text
  import opened Quoting
  import opened Paths

  /** A list written with a prefix before each value, such as `-I` dirs. */
  datatype Prefixed = Prefixed(prefix: string, items: seq<Item>)

  /** The `compiler` section. `defineItems` may be nil; the run adds to it. */
  datatype Compiler = Compiler(
    path: Item,
    definePrefix: string,
    defineItems: Option<seq<Item>>,
    options: seq<Item>,
    includes: Prefixed,
    objectPrefix: string,
    objectDestination: string,
    objectExtension: string,
    buildPath: string,
    runnerPath: Option<string>)

  /** The `linker` section; `includes` and its items may each be nil. */
  datatype Linker = Linker(
    path: Item,
    options: Option<seq<Item>>,
    includes: Option<(string, Option<seq<Item>>)>,
    objectPath: string,
    binPrefix: string,
    binDestination: string,
    binExtension: string)

  /** The optional `simulator` section. */
  datatype Simulator = Simulator(
    path: Option<Item>,
    preSupport: Option<seq<Item>>,
    postSupport: Option<seq<Item>>)

  /** The `defines` field: nothing when there are no items. */
  function DefinesText(c: Compiler): (r: string)
    ensures r == Squash(c.definePrefix, c.defineItems.GetOr([]))
  {
    match c.defineItems
    case None => ""
    case Some(ds) => Squash(c.definePrefix, ds)
  }

  /** The object file `compile` produces: the base name of the source
      without `.c`, with the configured extension. */
  function ObjectName(c: Compiler, file: string): string {
    BaseName(file) + c.objectExtension
  }

  /** `compile(file, _, extra)`: the command line, and the object file. */
  function CompileCommand(c: Compiler, file: string, extra: seq<Item>): (r: (string, string))
    ensures r.1 == ObjectName(c, file)
    ensures EndsWith(r.0, r.1)
  {
    var obj := ObjectName(c, file);
    var cmd := Tackit(c.path) + DefinesText(c) + Squash("", c.options + extra)
      + Cleanup(Squash(c.includes.prefix, c.includes.items))
      + " " + file + " " + c.objectPrefix + c.objectDestination + obj;
    assert cmd[|cmd| - |obj|..] == obj;
    (cmd, obj)
  }

  /** The object list of the link command: each object after the object
      path, followed by a space, in order. */
  function LinkObjects(objectPath: string, objs: seq<string>): string {
    if objs == [] then "" else objectPath + objs[0] + " " + LinkObjects(objectPath, objs[1..])
  }

  function LinkOptions(l: Linker): string {
    match l.options
    case None => ""
    case Some(os) => Squash("", os)
  }

  function LinkIncludes(l: Linker): string {
    match l.includes
    case None => ""
    case Some((prefix, items)) =>
      match items
      case None => Cleanup("")
      case Some(xs) => Cleanup(Squash(prefix, xs))
  }

  /** The executable `link_it` writes and the run executes. */
  function Executable(l: Linker, base: string): string {
    l.binDestination + base + l.binExtension
  }

  /** `link_it(exe, objs)`: the link command line. */
  function LinkCommand(l: Linker, exe: string, objs: seq<string>): (r: string)
    ensures StartsWith(r, Tackit(l.path))
    ensures EndsWith(r, l.binPrefix + " " + Executable(l, exe) + " " + LinkOptions(l))
  {
    var head := Tackit(l.path) + LinkIncludes(l) + " " + LinkObjects(l.objectPath, objs);
    var tail := l.binPrefix + " " + Executable(l, exe) + " " + LinkOptions(l);
    var r := Tackit(l.path) + LinkIncludes(l) + " " + LinkObjects(l.objectPath, objs)
      + l.binPrefix + " " + Executable(l, exe) + " " + LinkOptions(l);
    assert r == head + tail;
    assert (head + tail)[|head|..] == tail;
    assert (head + tail)[..|Tackit(l.path)|] == Tackit(l.path);
    r
  }

  /** The command that runs a test executable, directly or under the
      simulator with its support arguments around it. */
  function RunCommand(sim: Option<Simulator>, executable: string): (r: string)
    ensures sim.None? ==> r == executable
    ensures sim.Some? ==> |r| >= |executable| + 3
  {
    match sim
    case None => executable
    case Some(s) =>
      var command := match s.path case None => "" case Some(p) => Tackit(p) + " ";
      var pre := match s.preSupport case None => "" case Some(xs) => Squash("", xs);
      var post := match s.postSupport case None => "" case Some(xs) => Squash("", xs);
      command + " " + pre + " " + executable + " " + post
  }

  // The words of the commands.

  /** The words of `s` followed by `t`. */
  function ReadFrom(s: string, t: string): Option<seq<string>> {
    Scan(s + t, None, false)
  }

  /** `s` reads as the words `ws`, whatever blank-led text follows it. */
  ghost predicate ReadsAs(s: string, ws: seq<string>) {
    forall t {:trigger ReadFrom(s, t)} :: t == [] || Blank(t[0]) ==> ReadFrom(s, t) == Prepend(ws, Scan(t, None, false))
  }

  /** Text that reads as words on its own reads as them in a command. */
  lemma WordsOfReading(s: string, ws: seq<string>)
    requires ReadsAs(s, ws)
    ensures Words(s) == Some(ws)
  {
    assert ReadFrom(s, "") == Prepend(ws, Scan("", None, false));
    assert s + "" == s;
    assert ws + [] == ws;
  }

  /** Two readings in a row, the second led by a blank, read as both. */
  lemma ReadsAsConcat(a: string, aw: seq<string>, b: string, bw: seq<string>)
    requires ReadsAs(a, aw) && ReadsAs(b, bw)
    requires b == [] || Blank(b[0])
    ensures ReadsAs(a + b, aw + bw)
  {
    forall t | t == [] || Blank(t[0])
      ensures ReadFrom(a + b, t) == Prepend(aw + bw, Scan(t, None, false))
    {
      assert a + b + t == a + (b + t);
      assert b + t == [] || Blank((b + t)[0]);
      assert ReadFrom(a, b + t) == Prepend(aw, Scan(b + t, None, false));
      assert ReadFrom(b, t) == Prepend(bw, Scan(t, None, false));
      match Scan(t, None, false)
      case None =>
      case Some(v) => assert aw + (bw + v) == aw + bw + v;
    }
  }

  /** A squashed list reads as its prefixed items. */
  lemma SquashReads(prefix: string, items: seq<Item>)
    requires PlainText(prefix)
    requires forall i :: 0 <= i < |items| ==> OneWord(prefix, items[i])
    ensures ReadsAs(Squash(prefix, items), ItemWords(prefix, items))
  {
    forall t | t == [] || Blank(t[0])
      ensures ReadFrom(Squash(prefix, items), t) == Prepend(ItemWords(prefix, items), Scan(t, None, false))
    {
      ScanSquash(prefix, items, t);
    }
  }

  /** A blank reads as nothing. */
  lemma BlankReads()
    ensures ReadsAs(" ", [])
  {
    forall t | t == [] || Blank(t[0])
      ensures ReadFrom(" ", t) == Prepend([], Scan(t, None, false))
    {
      assert (" " + t)[0] == ' ' && (" " + t)[1..] == t;
      match Scan(t, None, false)
      case None =>
      case Some(v) => assert [] + v == v;
    }
  }

  /** A plain word that is not an option is written as itself. */
  lemma PlainItem(w: string)
    requires PlainText(w)
    ensures Tackit(Str(w)) == w
  {
    assert !HasSpace(w) by {
      assert forall i :: 0 <= i < |w| ==> !IsSpace(w[i]);
    }
  }

  /** A blank and a plain word read as that word. */
  lemma PlainWordReads(w: string)
    requires PlainText(w) && w != []
    ensures ReadsAs(" " + w, [w])
  {
    forall t | t == [] || Blank(t[0])
      ensures ReadFrom(" " + w, t) == Prepend([w], Scan(t, None, false))
    {
      var x := w + t;
      assert " " + w + t == " " + x;
      assert (" " + x)[0] == ' ' && (" " + x)[1..] == x;
      ScanPlain(w, None, t);
      assert "" + w == w;
      assert Extend(None, w) == Some(w);
      ScanEndWord(w, t);
    }
  }

  /** Six readings in a row, all but the first led by a blank. */
  lemma ReadsAs6(a: string, aw: seq<string>, b: string, bw: seq<string>, c: string, cw: seq<string>,
                 d: string, dw: seq<string>, e: string, ew: seq<string>, f: string, fw: seq<string>)
    requires ReadsAs(a, aw) && ReadsAs(b, bw) && ReadsAs(c, cw)
    requires ReadsAs(d, dw) && ReadsAs(e, ew) && ReadsAs(f, fw)
    requires b == [] || Blank(b[0])
    requires c == [] || Blank(c[0])
    requires d == [] || Blank(d[0])
    requires e == [] || Blank(e[0])
    requires f == [] || Blank(f[0])
    ensures Words(a + b + c + d + e + f) == Some(aw + bw + cw + dw + ew + fw)
  {
    ReadsAsConcat(a, aw, b, bw);
    ReadsAsConcat(a + b, aw + bw, c, cw);
    ReadsAsConcat(a + b + c, aw + bw + cw, d, dw);
    ReadsAsConcat(a + b + c + d, aw + bw + cw + dw, e, ew);
    ReadsAsConcat(a + b + c + d + e, aw + bw + cw + dw + ew, f, fw);
    WordsOfReading(a + b + c + d + e + f, aw + bw + cw + dw + ew + fw);
  }

  /** The item a command starts with reads as its text. */
  lemma HeadReads(path: Item)
    requires OneWord("", path)
    ensures ReadsAs(Tackit(path), [Display(path)])
  {
    forall t | t == [] || Blank(t[0])
      ensures ReadFrom(Tackit(path), t) == Prepend([Display(path)], Scan(t, None, false))
    {
      ScanItem("", path, t);
      assert " " + "" + Tackit(path) + t == " " + (Tackit(path) + t);
      assert (" " + (Tackit(path) + t))[0] == ' ' && (" " + (Tackit(path) + t))[1..] == Tackit(path) + t;
      assert "" + Display(path) == Display(path);
    }
  }

  lemma OneWordSlashFree(prefix: string, item: Item)
    requires OneWord(prefix, item)
    ensures '\\' !in Display(item)
  {
    var d := Display(item);
    assert forall i :: 0 <= i < |d| ==> d[i] != '\\' by {
      assert forall i :: 0 <= i < |d| ==> !QuoteSpecial(d[i]) || !Unsupported(d[i]) ==> d[i] != '\\';
    }
  }

  lemma {:induction false} SquashSlashFree(prefix: string, items: seq<Item>)
    requires PlainText(prefix)
    requires forall i :: 0 <= i < |items| ==> OneWord(prefix, items[i])
    ensures '\\' !in Squash(prefix, items)
  {
    if items != [] {
      assert forall i :: 0 <= i < |prefix| ==> prefix[i] != '\\';
      OneWordSlashFree(prefix, items[0]);
      SquashSlashFree(prefix, items[1..]);
    }
  }

  /** The include list of plain directories reads as the prefixed
      directories; the backslash cleanup leaves it alone. */
  lemma IncludesRead(prefix: string, items: seq<Item>)
    requires PlainText(prefix)
    requires forall i :: 0 <= i < |items| ==> OneWord(prefix, items[i])
    ensures ReadsAs(Cleanup(Squash(prefix, items)), ItemWords(prefix, items))
    ensures Cleanup(Squash(prefix, items)) == [] || Cleanup(Squash(prefix, items))[0] == ' '
  {
    SquashSlashFree(prefix, items);
    CleanupKeepsSlashFree(Squash(prefix, items));
    SquashReads(prefix, items);
  }

  /** The compile command reaches the compiler as its path, the prefixed
      defines, the options with the extra ones after them, the prefixed
      include directories, the source file, and the prefixed object file. */
  lemma CompileWords(c: Compiler, file: string, extra: seq<Item>)
    requires OneWord("", c.path)
    requires PlainText(c.definePrefix)
    requires forall i :: 0 <= i < |c.defineItems.GetOr([])| ==> OneWord(c.definePrefix, c.defineItems.GetOr([])[i])
    requires forall i :: 0 <= i < |c.options + extra| ==> OneWord("", (c.options + extra)[i])
    requires PlainText(c.includes.prefix)
    requires forall i :: 0 <= i < |c.includes.items| ==> OneWord(c.includes.prefix, c.includes.items[i])
    requires PlainText(file) && file != []
    requires PlainText(c.objectPrefix + c.objectDestination + ObjectName(c, file))
    ensures Words(CompileCommand(c, file, extra).0) == Some(
      [Display(c.path)]
      + ItemWords(c.definePrefix, c.defineItems.GetOr([]))
      + ItemWords("", c.options + extra)
      + ItemWords(c.includes.prefix, c.includes.items)
      + [file, c.objectPrefix + c.objectDestination + ObjectName(c, file)])
  {
    var last := c.objectPrefix + c.objectDestination + ObjectName(c, file);
    assert last != [] by { assert |BaseName(file)| > 0; }
    var p := Tackit(c.path);
    var d := DefinesText(c);
    var o := Squash("", c.options + extra);
    var i := Cleanup(Squash(c.includes.prefix, c.includes.items));
    CompileShape(c, file, extra);
    HeadReads(c.path);
    SquashReads(c.definePrefix, c.defineItems.GetOr([]));
    SquashReads("", c.options + extra);
    IncludesRead(c.includes.prefix, c.includes.items);
    PlainWordReads(file);
    PlainWordReads(last);
    ReadsAs6(p, [Display(c.path)],
             d, ItemWords(c.definePrefix, c.defineItems.GetOr([])),
             o, ItemWords("", c.options + extra),
             i, ItemWords(c.includes.prefix, c.includes.items),
             " " + file, [file],
             " " + last, [last]);
    var ws := [Display(c.path)] + ItemWords(c.definePrefix, c.defineItems.GetOr([]))
      + ItemWords("", c.options + extra) + ItemWords(c.includes.prefix, c.includes.items);
    assert ws + [file] + [last] == ws + [file, last];
  }

  /** Seven readings in a row, all but the first led by a blank. */
  lemma ReadsAs7(a: string, aw: seq<string>, b: string, bw: seq<string>, c: string, cw: seq<string>,
                 d: string, dw: seq<string>, e: string, ew: seq<string>, f: string, fw: seq<string>,
                 g: string, gw: seq<string>)
    requires ReadsAs(a, aw) && ReadsAs(b, bw) && ReadsAs(c, cw) && ReadsAs(d, dw)
    requires ReadsAs(e, ew) && ReadsAs(f, fw) && ReadsAs(g, gw)
    requires b == [] || Blank(b[0])
    requires c == [] || Blank(c[0])
    requires d == [] || Blank(d[0])
    requires e == [] || Blank(e[0])
    requires f == [] || Blank(f[0])
    requires g == [] || Blank(g[0])
    ensures Words(a + b + c + d + e + f + g) == Some(aw + bw + cw + dw + ew + fw + gw)
  {
    ReadsAsConcat(a, aw, b, bw);
    ReadsAs6(a + b, aw + bw, c, cw, d, dw, e, ew, f, fw, g, gw);
    assert a + b + c + d + e + f + g == (a + b) + c + d + e + f + g;
  }

  lemma CompileShape(c: Compiler, file: string, extra: seq<Item>)
    ensures CompileCommand(c, file, extra).0
         == Tackit(c.path) + DefinesText(c) + Squash("", c.options + extra)
          + Cleanup(Squash(c.includes.prefix, c.includes.items))
          + (" " + file) + (" " + (c.objectPrefix + c.objectDestination + ObjectName(c, file)))
  {
    var x := Tackit(c.path) + DefinesText(c) + Squash("", c.options + extra)
      + Cleanup(Squash(c.includes.prefix, c.includes.items));
    TailRegroup(x, file, c.objectPrefix, c.objectDestination, ObjectName(c, file));
  }

  lemma BlankRegroup(x: string, e: string, b: string)
    ensures x + " " + e + " " + b == x + (" " + e) + " " + b
  {
  }

  lemma TailRegroup(x: string, f: string, a: string, b: string, o: string)
    ensures x + " " + f + " " + a + b + o == x + (" " + f) + (" " + (a + b + o))
  {
  }

  function Strs(ws: seq<string>): (r: seq<Item>)
    ensures |r| == |ws|
    ensures forall i :: 0 <= i < |ws| ==> r[i] == Str(ws[i])
  {
    if ws == [] then [] else [Str(ws[0])] + Strs(ws[1..])
  }

  /** Each word with `p` in front of it. */
  function Prefixes(p: string, ws: seq<string>): (r: seq<string>)
    ensures |r| == |ws|
    ensures forall i :: 0 <= i < |ws| ==> r[i] == p + ws[i]
  {
    if ws == [] then [] else [p + ws[0]] + Prefixes(p, ws[1..])
  }

  /** The object list, each object followed by a space, is the squashed
      list of objects with the object path as prefix, then a space. */
  lemma {:induction false} LinkObjectsSquashed(objectPath: string, objs: seq<string>)
    requires forall i :: 0 <= i < |objs| ==> PlainText(objs[i])
    ensures " " + LinkObjects(objectPath, objs) == Squash(objectPath, Strs(objs)) + " "
  {
    if objs != [] {
      LinkObjectsSquashed(objectPath, objs[1..]);
      PlainItem(objs[0]);
      assert Strs(objs)[0] == Str(objs[0]) && Strs(objs)[1..] == Strs(objs[1..]);
      var lo := LinkObjects(objectPath, objs[1..]);
      var head := " " + objectPath + objs[0];
      assert " " + LinkObjects(objectPath, objs) == head + (" " + lo);
      assert Squash(objectPath, Strs(objs)) == head + Squash(objectPath, Strs(objs[1..]));
    }
  }

  /** The objects read as themselves after the object path, in order. */
  lemma ObjectsRead(objectPath: string, objs: seq<string>)
    requires PlainText(objectPath)
    requires forall i :: 0 <= i < |objs| ==> PlainText(objs[i]) && objectPath + objs[i] != []
    ensures ReadsAs(Squash(objectPath, Strs(objs)), Prefixes(objectPath, objs))
  {
    var items := Strs(objs);
    forall i | 0 <= i < |items|
      ensures OneWord(objectPath, items[i])
    {
      PlainItem(objs[i]);
    }
    SquashReads(objectPath, items);
    assert ItemWords(objectPath, items) == Prefixes(objectPath, objs);
  }

  /** The link command reaches the linker as its path, the prefixed include
      directories, every object after the object path in list order, the
      output prefix, the executable, and the options. */
  lemma LinkWords(l: Linker, exe: string, objs: seq<string>, incPrefix: string, incs: seq<Item>, opts: seq<Item>)
    requires OneWord("", l.path)
    requires l.includes == Some((incPrefix, Some(incs)))
    requires PlainText(incPrefix) && forall i :: 0 <= i < |incs| ==> OneWord(incPrefix, incs[i])
    requires PlainText(l.objectPath)
    requires forall i :: 0 <= i < |objs| ==> PlainText(objs[i]) && l.objectPath + objs[i] != []
    requires PlainText(l.binPrefix) && l.binPrefix != []
    requires PlainText(Executable(l, exe)) && Executable(l, exe) != []
    requires l.options == Some(opts) && forall i :: 0 <= i < |opts| ==> OneWord("", opts[i])
    ensures Words(LinkCommand(l, exe, objs)) == Some(
      [Display(l.path)]
      + ItemWords(incPrefix, incs)
      + Prefixes(l.objectPath, objs)
      + [l.binPrefix, Executable(l, exe)]
      + ItemWords("", opts))
  {
    var p := Tackit(l.path);
    var i := LinkIncludes(l);
    var ob := Squash(l.objectPath, Strs(objs));
    var o := Squash("", opts);
    LinkShape(l, exe, objs);
    assert i == Cleanup(Squash(incPrefix, incs));
    HeadReads(l.path);
    IncludesRead(incPrefix, incs);
    ObjectsRead(l.objectPath, objs);
    PlainWordReads(l.binPrefix);
    PlainWordReads(Executable(l, exe));
    BlankReads();
    SquashReads("", opts);
    LinkReading(LinkCommand(l, exe, objs), p, [Display(l.path)], i, ItemWords(incPrefix, incs),
                ob, Prefixes(l.objectPath, objs), l.binPrefix, Executable(l, exe), o, ItemWords("", opts));
  }

  /** The link command's parts, read one after another. */
  lemma LinkReading(cmd: string, p: string, pw: seq<string>, i: string, iw: seq<string>,
                    ob: string, obw: seq<string>, bp: string, ex: string, o: string, ow: seq<string>)
    requires cmd == p + i + ob + (" " + bp) + (" " + ex) + " " + o
    requires ReadsAs(p, pw) && ReadsAs(i, iw) && ReadsAs(ob, obw) && ReadsAs(o, ow)
    requires ReadsAs(" " + bp, [bp]) && ReadsAs(" " + ex, [ex]) && ReadsAs(" ", [])
    requires i == [] || Blank(i[0])
    requires ob == [] || Blank(ob[0])
    requires o == [] || Blank(o[0])
    ensures Words(cmd) == Some(pw + iw + obw + [bp, ex] + ow)
  {
    ReadsAs7(p, pw, i, iw, ob, obw, " " + bp, [bp], " " + ex, [ex], " ", [], o, ow);
    var ws := pw + iw + obw;
    assert ws + [bp] + [ex] + [] + ow == ws + [bp, ex] + ow;
  }

  lemma LinkShape(l: Linker, exe: string, objs: seq<string>)
    requires forall i :: 0 <= i < |objs| ==> PlainText(objs[i])
    ensures LinkCommand(l, exe, objs)
         == Tackit(l.path) + LinkIncludes(l) + Squash(l.objectPath, Strs(objs))
          + (" " + l.binPrefix) + (" " + Executable(l, exe)) + " " + LinkOptions(l)
  {
    LinkObjectsSquashed(l.objectPath, objs);
    Regroup(Tackit(l.path) + LinkIncludes(l), LinkObjects(l.objectPath, objs), Squash(l.objectPath, Strs(objs)),
            l.binPrefix, Executable(l, exe), LinkOptions(l));
  }

  lemma Regroup(a: string, lo: string, sq: string, bp: string, ex: string, o: string)
    requires " " + lo == sq + " "
    ensures a + " " + lo + bp + " " + ex + " " + o == a + sq + (" " + bp) + (" " + ex) + " " + o
  {
    assert a + " " + lo == a + (" " + lo);
    assert a + (sq + " ") == a + sq + " ";
    assert a + sq + " " + bp == a + sq + (" " + bp);
    var y := a + sq + (" " + bp);
    assert y + " " + ex == y + (" " + ex);
  }

  /** Under a simulator the test reaches it as the simulator path, the
      pre-support arguments, the executable, and the post-support arguments. */
  lemma RunWords(path: Item, pre: seq<Item>, post: seq<Item>, executable: string)
    requires OneWord("", path)
    requires forall i :: 0 <= i < |pre| ==> OneWord("", pre[i])
    requires forall i :: 0 <= i < |post| ==> OneWord("", post[i])
    requires PlainText(executable) && executable != []
    ensures Words(RunCommand(Some(Simulator(Some(path), Some(pre), Some(post))), executable)) == Some(
      [Display(path)] + ItemWords("", pre) + [executable] + ItemWords("", post))
  {
    var p := Tackit(path);
    var a := Squash("", pre);
    var b := Squash("", post);
    // The blanks the simulator fields put around each part read as nothing.
    assert RunCommand(Some(Simulator(Some(path), Some(pre), Some(post))), executable)
        == p + " " + " " + a + " " + executable + " " + b;
    HeadReads(path);
    BlankReads();
    SquashReads("", pre);
    PlainWordReads(executable);
    SquashReads("", post);
    RunReading(p, [Display(path)], a, ItemWords("", pre), executable, b, ItemWords("", post));
  }

  /** The simulator command's parts, read one after another. */
  lemma RunReading(p: string, pw: seq<string>, a: string, aw: seq<string>, executable: string,
                   b: string, bw: seq<string>)
    requires ReadsAs(p, pw) && ReadsAs(a, aw) && ReadsAs(b, bw) && ReadsAs(" ", [])
    requires ReadsAs(" " + executable, [executable])
    requires a == [] || Blank(a[0])
    requires b == [] || Blank(b[0])
    ensures Words(p + " " + " " + a + " " + executable + " " + b) == Some(pw + aw + [executable] + bw)
  {
    var e := " " + executable;
    BlankRegroup(p + " " + " " + a, executable, b);
    ReadsAsConcat(p, pw, " ", []);
    assert pw + [] == pw;
    ReadsAsConcat(p + " ", pw, " ", []);
    ReadsAsConcat(p + " " + " ", pw, a, aw);
    ReadsAsConcat(p + " " + " " + a, pw + aw, e, [executable]);
    ReadsAsConcat(p + " " + " " + a + e, pw + aw + [executable], " ", []);
    assert pw + aw + [executable] + [] == pw + aw + [executable];
    ReadsAsConcat(p + " " + " " + a + e + " ", pw + aw + [executable], b, bw);
    WordsOfReading(p + " " + " " + a + e + " " + b, pw + aw + [executable] + bw);
  }
}

=== FILE: headers.dfy ===
/**
  The header scanner of `extract_headers`: two line-anchored recognisers,
  one for `#include "name.h"` and one for the `// @MODULE "name.c"`
  annotation, and the line-by-line list of header names they produce.

  Both regular expressions end in `\s*(.+\.X)\s*"` after an opening quote,
  where `X` is an extension letter class. Ruby's backtracking engine gives
  the leading `\s*` as many characters as it can and then the greedy `.+`
  as many as it can, so the capture runs to the LAST dot-extension that is
  followed by optional whitespace and a closing quote. `NameMatch` states
  which splittings the pattern admits and `Preferred` which one the
  engine reports; `NameSpan` computes it directly.
 */
module Headers {
  import opened Wrappers
  import opened Text

  /** A line carrying this substring contributes no `#include` header. */
  const NoModuleMarker: string := "@NO_MODULE"

  /** The extension letters of `\.[hH]` and `\.[cC]`. */
  const HeaderExts: set<char> := {'h', 'H'}
  const SourceExts: set<char> := {'c', 'C'}

  /** `\s*"` matches `r` at position `p`: whitespace, then a closing quote. */
  predicate ClosesAt(r: string, p: nat) {
    p <= |r| && var q := p + SpaceRun(r, p); q < |r| && r[q] == '"'
  }

  /** `\.X\s*"` matches `r` at position `e`. */
  predicate ExtensionAt(r: string, exts: set<char>, e: int) {
    0 <= e && e + 2 <= |r| && r[e] == '.' && r[e + 1] in exts && ClosesAt(r, e + 2)
  }

  /** `\s*(.+\.X)\s*"` matches `r` from its first character with `\s*`
      spanning `r[..k]` and `.+` spanning `r[k..e]` (lines hold no newline,
      so `.` matches every character). */
  ghost predicate NameMatch(r: string, exts: set<char>, k: int, e: int) {
    && 0 <= k < e
    && ExtensionAt(r, exts, e)
    && (forall j :: 0 <= j < k ==> IsSpace(r[j]))
  }

  /** The match a backtracking engine reports: the longest leading `\s*`
      that admits a match, then the longest `.+` for it. */
  ghost predicate Preferred(r: string, exts: set<char>, k: int, e: int) {
    && NameMatch(r, exts, k, e)
    && forall k2, e2 :: NameMatch(r, exts, k2, e2) ==> k2 < k || (k2 == k && e2 <= e)
  }

  /** The last position below `hi` where `\.X\s*"` matches. */
  function LastExtension(r: string, exts: set<char>, hi: nat): (o: Option<nat>)
    requires hi <= |r|
    ensures o.Some? ==> o.value < hi && ExtensionAt(r, exts, o.value)
    ensures o.Some? ==> forall e :: o.value < e < hi ==> !ExtensionAt(r, exts, e)
    ensures o.None? ==> forall e :: 0 <= e < hi ==> !ExtensionAt(r, exts, e)
  {
    if hi == 0 then None
    else if ExtensionAt(r, exts, hi - 1) then Some(hi - 1)
    else LastExtension(r, exts, hi - 1)
  }

  /** The span `(k, e)` of the preferred match of `\s*(.+\.X)\s*"` at the
      start of `r`, or `None` when the pattern does not match there. */
  function NameSpan(r: string, exts: set<char>): (o: Option<(nat, nat)>)
    ensures o.Some? ==> Preferred(r, exts, o.value.0, o.value.1)
    ensures o.None? ==> forall k, e :: !NameMatch(r, exts, k, e)
  {
    var w := SpaceRun(r, 0);
    match LastExtension(r, exts, |r|)
    case None => None
    case Some(e) =>
      if w < e then Some((w, e))
      else if 0 < w then Some((w - 1, e))
      else None
  }

  /** Where `^\s*#include\s+"` leaves off: the position after the quote. */
  function IncludeOpening(line: string): (o: Option<nat>)
    ensures o.Some? ==> 10 <= o.value <= |line| && line[o.value - 1] == '"'
    ensures o.Some? ==> line[SpaceRun(line, 0)] == '#'
  {
    var a := SpaceRun(line, 0);
    if StartsWith(line[a..], "#include") then
      var b := a + 8;
      var c := SpaceRun(line, b);
      if 0 < c && b + c < |line| && line[b + c] == '"' then Some(b + c + 1) else None
    else None
  }

  /** Where `^\/\/\s*@MODULE\s+"` leaves off: the position after the quote. */
  function ModuleOpening(line: string): (o: Option<nat>)
    ensures o.Some? ==> 11 <= o.value <= |line| && line[o.value - 1] == '"'
    ensures o.Some? ==> line[..2] == "//"
  {
    if StartsWith(line, "//") then
      var a := 2 + SpaceRun(line, 2);
      if StartsWith(line[a..], "@MODULE") then
        var b := a + 7;
        var c := SpaceRun(line, b);
        if 0 < c && b + c < |line| && line[b + c] == '"' then Some(b + c + 1) else None
      else None
    else None
  }

  /** The capture of `^\s*#include\s+"\s*(.+\.[hH])\s*"` on one line. */
  function IncludeName(line: Line): (o: Option<string>)
    ensures o.Some? ==> |o.value| >= 2 && o.value[|o.value| - 2] == '.' && o.value[|o.value| - 1] in HeaderExts
  {
    match IncludeOpening(line)
    case None => None
    case Some(j) =>
      var r := line[j..];
      match NameSpan(r, HeaderExts)
      case None => None
      case Some((k, e)) => Some(r[k..e + 2])
  }

  /** The capture of `^\/\/\s*@MODULE\s+"\s*(.+\.)[cC]\s*"` on one line,
      with `h` appended: the header that stands for the named module. */
  function ModuleHeader(line: Line): (o: Option<string>)
    ensures o.Some? ==> |o.value| >= 2 && o.value[|o.value| - 2..] == ".h"
  {
    match ModuleOpening(line)
    case None => None
    case Some(j) =>
      var r := line[j..];
      match NameSpan(r, SourceExts)
      case None => None
      case Some((k, e)) => Some(r[k..e + 1] + "h")
  }

  /** What one line adds to the header list: its `#include` name unless the
      line mentions `@NO_MODULE`, then its `@MODULE` header. */
  function LineHeaders(line: Line): (r: seq<string>)
    ensures |r| <= 1
    ensures IncludeName(line).Some? && !Contains(line, NoModuleMarker) ==> r == [IncludeName(line).value]
    ensures ModuleHeader(line).Some? ==> r == [ModuleHeader(line).value]
    ensures r == [] <==> (IncludeName(line).None? || Contains(line, NoModuleMarker)) && ModuleHeader(line).None?
  {
    OpeningsExclusive(line);
    (if IncludeName(line).Some? && !Contains(line, NoModuleMarker) then [IncludeName(line).value] else [])
    + (if ModuleHeader(line).Some? then [ModuleHeader(line).value] else [])
  }

  /** `extract_headers`: the header names of a file's lines, line by line. */
  function ExtractHeaders(lines: seq<Line>): (r: seq<string>)
    ensures |r| <= |lines|
  {
    ConcatMapAtMostOne(lines, LineHeaders);
    ConcatMap(lines, LineHeaders)
  }

  /** No line opens both an `#include` and a `// @MODULE`: the first starts
      with whitespace and `#`, the second with `//`. */
  lemma OpeningsExclusive(line: string)
    ensures IncludeOpening(line).None? || ModuleOpening(line).None?
  {
    if IncludeOpening(line).Some? && ModuleOpening(line).Some? {
      assert false;
    }
  }

  /** The header list of two consecutive runs of lines is the list of the
      first followed by the list of the second: names keep line order. */
  lemma ExtractHeadersAppend(a: seq<Line>, b: seq<Line>)
    ensures ExtractHeaders(a + b) == ExtractHeaders(a) + ExtractHeaders(b)
  {
    ConcatMapAppend(a, b, LineHeaders);
  }

  /** A name ends in a dot and a header extension letter. */
  predicate HeaderShaped(n: string) {
    |n| >= 2 && n[|n| - 2] == '.' && n[|n| - 1] in HeaderExts
  }

  /** Every name in the header list ends in `.h` or `.H`, and it comes from
      one of the file's lines. */
  lemma HeadersEndInH(lines: seq<Line>, n: string)
    requires n in ExtractHeaders(lines)
    ensures HeaderShaped(n)
    ensures exists line :: line in lines && n in LineHeaders(line)
  {
    ConcatMapFrom(lines, LineHeaders, n);
    var line :| line in lines && n in LineHeaders(line);
    LineHeadersShaped(line, n);
  }

  /** Every name one line contributes is header-shaped. */
  lemma LineHeadersShaped(line: Line, n: string)
    requires n in LineHeaders(line)
    ensures HeaderShaped(n)
  {
  }

  /** `^\s*#include\s+"` on `#include "...` ends after ten characters. */
  lemma IncludeOpeningOf(rest: string)
    ensures IncludeOpening("#include \"" + rest) == Some(10)
  {
    var line := "#include \"" + rest;
    assert line[0] == '#';
    assert SpaceRun(line, 0) == 0;
    assert line[..8] == "#include";
    assert line[9] == '"';
    assert SpaceRun(line, 9) == 0;
    assert SpaceRun(line, 8) == 1;
  }

  /** A quoted name with a single final extension is captured whole. */
  lemma NameSpanOfQuoted(n: string, exts: set<char>)
    requires |n| >= 3 && n[|n| - 2] == '.' && n[|n| - 1] in exts
    requires !IsSpace(n[0])
    ensures NameSpan(n + "\"", exts) == Some((0, |n| - 2))
  {
    var r := n + "\"";
    var e := |n| - 2;
    assert r[|n|] == '"';
    assert SpaceRun(r, |n|) == 0;
    assert ExtensionAt(r, exts, e);
    assert !ExtensionAt(r, exts, e + 1);
    assert !ExtensionAt(r, exts, e + 2);
    assert LastExtension(r, exts, |r|) == Some(e);
    assert r[0] == n[0];
    assert SpaceRun(r, 0) == 0;
  }

  /** The module header of a line whose opening ends at `j` and whose name
      spans `k` to `e + 1` after it. */
  lemma ModuleHeaderAt(line: Line, j: nat, r: string, k: nat, e: nat)
    requires ModuleOpening(line) == Some(j) && r == line[j..]
    requires NameSpan(r, SourceExts) == Some((k, e))
    ensures ModuleHeader(line) == Some(r[k..e + 1] + "h")
  {
  }

  /** The name `stem.` with `h` after it. */
  lemma NameDotH(rest: string, stem: string)
    requires |stem| + 1 <= |rest| && rest[..|stem| + 1] == stem + "."
    ensures rest[0..|stem| + 1] + "h" == stem + ".h"
  {
    assert rest[0..|stem| + 1] == stem + ".";
  }

  /** `^\/\/\s*@MODULE\s+"` on `// @MODULE "...` ends after twelve characters. */
  lemma ModuleOpeningOf(rest: string)
    ensures ModuleOpening("// @MODULE \"" + rest) == Some(12)
  {
    var line := "// @MODULE \"" + rest;
    assert line[..2] == "//";
    assert line[3] == '@';
    assert SpaceRun(line, 3) == 0;
    assert SpaceRun(line, 2) == 1;
    assert line[3..][..7] == "@MODULE";
    assert line[11] == '"';
    assert SpaceRun(line, 11) == 0;
    assert SpaceRun(line, 10) == 1;
  }

  /** Writing `#include "n"` for a header name `n` and scanning the line
      gives back `n`: the recogniser captures the whole quoted name. */
  lemma IncludeLineRoundTrip(n: string)
    requires |n| >= 3 && HeaderShaped(n)
    requires !IsSpace(n[0]) && '\n' !in n
    ensures var line: Line := "#include \"" + n + "\"";
      IncludeName(line) == Some(n) && ModuleHeader(line).None?
  {
    var line: Line := "#include \"" + n + "\"";
    assert line == "#include \"" + (n + "\"");
    IncludeOpeningOf(n + "\"");
    assert line[10..] == n + "\"";
    NameSpanOfQuoted(n, HeaderExts);
    assert (n + "\"")[0..|n|] == n;
    OpeningsExclusive(line);
  }

  /** Writing `// @MODULE "stem.c"` (or `.C`) and scanning the line gives
      the header `stem.h`, always with a lower-case `h`. */
  lemma ModuleLineRoundTrip(stem: string, x: char)
    requires |stem| >= 1 && !IsSpace(stem[0]) && '\n' !in stem
    requires x in SourceExts
    ensures var line: Line := "// @MODULE \"" + stem + "." + [x] + "\"";
      ModuleHeader(line) == Some(stem + ".h") && IncludeName(line).None?
  {
    var n := stem + "." + [x];
    var line: Line := "// @MODULE \"" + stem + "." + [x] + "\"";
    assert line == "// @MODULE \"" + (n + "\"");
    ModuleCaptureOf(n + "\"", stem);
    OpeningsExclusive(line);
  }

  /** The module recogniser on `// @MODULE "` followed by `stem.c"`. */
  lemma ModuleCaptureOf(rest: string, stem: string)
    requires |stem| >= 1 && !IsSpace(stem[0]) && '\n' !in stem
    requires |rest| == |stem| + 3 && rest[..|stem| + 1] == stem + "."
    requires rest[|stem| + 1] in SourceExts && rest[|stem| + 2] == '"'
    requires '\n' !in rest
    ensures ModuleHeader("// @MODULE \"" + rest) == Some(stem + ".h")
  {
    var line: Line := "// @MODULE \"" + rest;
    ModuleOpeningOf(rest);
    assert line[12..] == rest;
    QuotedSourceName(rest, stem);
    ModuleHeaderAt(line, 12, rest, 0, |stem|);
    NameDotH(rest, stem);
  }

  /** The name span of `stem.c"` covers `stem.c`. */
  lemma QuotedSourceName(rest: string, stem: string)
    requires |stem| >= 1 && !IsSpace(stem[0])
    requires |rest| == |stem| + 3 && rest[..|stem| + 1] == stem + "."
    requires rest[|stem| + 1] in SourceExts && rest[|stem| + 2] == '"'
    ensures NameSpan(rest, SourceExts) == Some((0, |stem|))
  {
    var n := rest[..|stem| + 2];
    assert rest == n + "\"";
    assert n[|n| - 2] == '.' && n[0] == stem[0];
    NameSpanOfQuoted(n, SourceExts);
  }
}

=== FILE: markers.dfy ===
/**
  The token-marker scanners: `annotation_ignore_file?` (the
  `@IGNORE_IF_NOT <define>` annotation), `exclude_test_files`, which drops
  the test files that annotation rules out, and `read_lib_annotations`
  (the `@BUILD_LIB <library>` annotation).

  Both scanners look only at lines that contain the marker text, cut such a
  line into tokens with `split(' ')`, find the FIRST token equal to the
  marker and read the token after it. When the marker text occurs but no
  token equals it (`//@BUILD_LIB x`), `tokens.index` yields nil and the
  following `nil + 2` raises; that is the `MarkerNotToken` error here.
 */
module Markers {
  import opened Wrappers
  import opened Text

  const IgnoreMarker: string := "@IGNORE_IF_NOT"
  const LibMarker: string := "@BUILD_LIB"

  /** The exception a marker scanner raises. */
  datatype ScanError = MarkerNotToken(marker: string)

  /** A test file: its path and its lines. */
  datatype SourceFile = SourceFile(path: string, lines: seq<Line>)

  /** What a line says about a marker. */
  datatype MarkerUse =
    | Absent              // the marker text does not occur on the line
    | Malformed           // it occurs, but not as a token of its own
    | Last                // its first token occurrence ends the line
    | Followed(arg: string) // the token after its first token occurrence

  /** `j` is the first position of `m` among the tokens. */
  ghost predicate FirstAt(toks: seq<string>, m: string, j: int) {
    0 <= j < |toks| && toks[j] == m && m !in toks[..j]
  }

  /** How `marker` occurs on `line`. */
  function MarkerOnLine(line: Line, marker: string): (u: MarkerUse)
    ensures u.Absent? <==> !Contains(line, marker)
    ensures u.Malformed? <==> Contains(line, marker) && marker !in Tokens(line)
    ensures u.Last? ==> FirstAt(Tokens(line), marker, |Tokens(line)| - 1)
    ensures u.Followed? ==> exists j :: FirstAt(Tokens(line), marker, j) && j + 1 < |Tokens(line)| && u.arg == Tokens(line)[j + 1]
    ensures marker in Tokens(line) <==> u.Last? || u.Followed?
  {
    if !Contains(line, marker) then
      assert marker !in Tokens(line) by {
        if marker in Tokens(line) {
          TokenOccursInString(line, marker);
        }
      }
      Absent
    else
      var toks := Tokens(line);
      match IndexOf(toks, marker)
      case None => Malformed
      case Some(j) =>
        assert FirstAt(toks, marker, j);
        if |toks| >= j + 2 then Followed(toks[j + 1]) else Last
  }

  /** The line carries `@IGNORE_IF_NOT` as a token, followed by a token
      that names none of the defines. */
  ghost predicate Ignoring(line: Line, defines: seq<string>) {
    var toks := Tokens(line);
    exists j :: FirstAt(toks, IgnoreMarker, j) && j + 1 < |toks| && toks[j + 1] !in defines
  }

  /** The line would make the scanner raise. */
  predicate MalformedFor(line: Line, marker: string) {
    MarkerOnLine(line, marker).Malformed?
  }

  /** One line's verdict in `annotation_ignore_file?`: ignore the file, go on
      to the next line, or raise. */
  function LineIgnores(line: Line, defines: seq<string>): (r: Result<bool, ScanError>)
    ensures r.Err? <==> MalformedFor(line, IgnoreMarker)
    ensures r == Ok(true) <==> Ignoring(line, defines)
  {
    match MarkerOnLine(line, IgnoreMarker)
    case Malformed => Err(MarkerNotToken(IgnoreMarker))
    case Followed(condition) => Ok(condition !in defines)
    case _ => Ok(false)
  }

  /** `annotation_ignore_file?`: the first line that decides, decides. */
  function IgnoreFile(lines: seq<Line>, defines: seq<string>): (r: Result<bool, ScanError>)
    ensures r == Ok(true) ==> exists i :: 0 <= i < |lines| && Ignoring(lines[i], defines)
    ensures r.Err? ==> exists i :: 0 <= i < |lines| && MalformedFor(lines[i], IgnoreMarker)
    ensures (forall i :: 0 <= i < |lines| ==> LineIgnores(lines[i], defines) == Ok(false)) ==> r == Ok(false)
  {
    if lines == [] then Ok(false)
    else match LineIgnores(lines[0], defines)
      case Err(e) => Err(e)
      case Ok(true) => Ok(true)
      case Ok(false) =>
        var rest := IgnoreFile(lines[1..], defines);
        assert forall i :: 0 <= i < |lines[1..]| ==> lines[1..][i] == lines[i + 1];
        rest
  }

  /** Line `i` carries an unmet condition and no earlier line raises. */
  ghost predicate IgnoredAt(lines: seq<Line>, defines: seq<string>, i: int) {
    && 0 <= i < |lines|
    && Ignoring(lines[i], defines)
    && forall j :: 0 <= j < i ==> !MalformedFor(lines[j], IgnoreMarker)
  }

  /** Line `i` is malformed and no earlier line carries an unmet condition. */
  ghost predicate RaisesAt(lines: seq<Line>, defines: seq<string>, i: int) {
    && 0 <= i < |lines|
    && MalformedFor(lines[i], IgnoreMarker)
    && forall j :: 0 <= j < i ==> !Ignoring(lines[j], defines)
  }

  /** A file is ignored exactly when some line carries an unmet
      `@IGNORE_IF_NOT` condition and no earlier line raises. */
  lemma {:induction false} IgnoreFileIgnoredSpec(lines: seq<Line>, defines: seq<string>)
    ensures IgnoreFile(lines, defines) == Ok(true) <==> exists i :: IgnoredAt(lines, defines, i)
  {
    if lines != [] {
      IgnoreFileIgnoredSpec(lines[1..], defines);
      IgnoreFileStep(lines, defines);
      IgnoredAtShift(lines, defines);
    }
  }

  /** The scan raises exactly when some line is malformed and no earlier
      line carries an unmet condition. */
  lemma {:induction false} IgnoreFileRaisesSpec(lines: seq<Line>, defines: seq<string>)
    ensures IgnoreFile(lines, defines).Err? <==> exists i :: RaisesAt(lines, defines, i)
  {
    if lines != [] {
      IgnoreFileRaisesSpec(lines[1..], defines);
      IgnoreFileStep(lines, defines);
      RaisesAtShift(lines, defines);
    }
  }

  /** The scan of a file is its first line's verdict, or, when that line
      neither ignores nor raises, the scan of the rest. */
  lemma IgnoreFileStep(lines: seq<Line>, defines: seq<string>)
    requires lines != []
    ensures IgnoreFile(lines, defines) == Ok(true) <==>
      Ignoring(lines[0], defines) || (!MalformedFor(lines[0], IgnoreMarker) && IgnoreFile(lines[1..], defines) == Ok(true))
    ensures IgnoreFile(lines, defines).Err? <==>
      MalformedFor(lines[0], IgnoreMarker) || (!Ignoring(lines[0], defines) && IgnoreFile(lines[1..], defines).Err?)
  {
    var v := LineIgnores(lines[0], defines);
    assert IgnoreFile(lines, defines) == (if v.Err? then Err(v.error) else if v.value then Ok(true) else IgnoreFile(lines[1..], defines));
  }

  /** An ignoring line is the first line, or a later one past a first line
      that does not raise. */
  lemma IgnoredAtShift(lines: seq<Line>, defines: seq<string>)
    requires lines != []
    ensures (exists i :: IgnoredAt(lines, defines, i)) <==>
      Ignoring(lines[0], defines) || (!MalformedFor(lines[0], IgnoreMarker) && exists i :: IgnoredAt(lines[1..], defines, i))
  {
    if Ignoring(lines[0], defines) {
      assert IgnoredAt(lines, defines, 0);
    }
    if !MalformedFor(lines[0], IgnoreMarker) && exists i :: IgnoredAt(lines[1..], defines, i) {
      var i :| IgnoredAt(lines[1..], defines, i);
      assert IgnoredAt(lines, defines, i + 1);
    }
    if exists i :: IgnoredAt(lines, defines, i) {
      var i :| IgnoredAt(lines, defines, i);
      if i > 0 {
        assert IgnoredAt(lines[1..], defines, i - 1);
      }
    }
  }

  /** A raising line is the first line, or a later one past a first line
      that does not ignore. */
  lemma RaisesAtShift(lines: seq<Line>, defines: seq<string>)
    requires lines != []
    ensures (exists i :: RaisesAt(lines, defines, i)) <==>
      MalformedFor(lines[0], IgnoreMarker) || (!Ignoring(lines[0], defines) && exists i :: RaisesAt(lines[1..], defines, i))
  {
    if MalformedFor(lines[0], IgnoreMarker) {
      assert RaisesAt(lines, defines, 0);
    }
    if !Ignoring(lines[0], defines) && exists i :: RaisesAt(lines[1..], defines, i) {
      var i :| RaisesAt(lines[1..], defines, i);
      assert RaisesAt(lines, defines, i + 1);
    }
    if exists i :: RaisesAt(lines, defines, i) {
      var i :| RaisesAt(lines, defines, i);
      if i > 0 {
        assert RaisesAt(lines[1..], defines, i - 1);
      }
    }
  }

  /** Adding defines never turns a kept file into an ignored one, and never
      makes a raising scan succeed. */
  lemma {:induction false} MoreDefinesKeep(lines: seq<Line>, fewer: seq<string>, more: seq<string>)
    requires forall x :: x in fewer ==> x in more
    ensures IgnoreFile(lines, fewer) == Ok(false) ==> IgnoreFile(lines, more) == Ok(false)
    ensures IgnoreFile(lines, fewer).Err? ==> IgnoreFile(lines, more).Err?
  {
    if lines != [] {
      MoreDefinesKeep(lines[1..], fewer, more);
    }
  }

  /** A one-line file `// @IGNORE_IF_NOT c` is ignored exactly when `c` is
      not among the defines. */
  lemma ConditionLineDecides(c: string, defines: seq<string>)
    requires IsToken(c)
    ensures var line := SpaceJoin(["//", IgnoreMarker, c]);
      '\n' !in line && IgnoreFile([line], defines).Ok?
      && (IgnoreFile([line], defines).value <==> c !in defines)
  {
    var ts := ["//", IgnoreMarker, c];
    assert forall k :: 0 <= k < |ts| ==> IsToken(ts[k]) by {
      assert !IsSpace(IgnoreMarker[0]);
      assert !HasSpace("//");
    }
    var line := SpaceJoin(ts);
    SpaceJoinIsLine(ts);
    TokensOfSpaceJoin(ts);
    assert IndexOf(ts, IgnoreMarker) == Some(1);
    TokenOccursInString(line, IgnoreMarker);
    assert MarkerOnLine(line, IgnoreMarker) == Followed(c);
  }

  /** The file is kept by `exclude_test_files`. */
  predicate Kept(f: SourceFile, defines: seq<string>) {
    IgnoreFile(f.lines, defines) == Ok(false)
  }

  /** `a` is `b` with some elements left out, the rest in their order. */
  ghost predicate IsSubsequence<T>(a: seq<T>, b: seq<T>) {
    if a == [] then true
    else if b == [] then false
    else (a[0] == b[0] && IsSubsequence(a[1..], b[1..])) || IsSubsequence(a, b[1..])
  }

  /** `exclude_test_files`: the files no `@IGNORE_IF_NOT` line rules out, in
      their order; a malformed marker line in any file raises. */
  function ExcludeTestFiles(files: seq<SourceFile>, defines: seq<string>): (r: Result<seq<SourceFile>, ScanError>)
    ensures r.Ok? <==> forall i :: 0 <= i < |files| ==> IgnoreFile(files[i].lines, defines).Ok?
    ensures r.Ok? ==> forall f :: f in r.value <==> f in files && Kept(f, defines)
    ensures r.Ok? ==> IsSubsequence(r.value, files)
  {
    if files == [] then Ok([])
    else match IgnoreFile(files[0].lines, defines)
      case Err(e) => Err(e)
      case Ok(ignored) =>
        match ExcludeTestFiles(files[1..], defines)
        case Err(e) => Err(e)
        case Ok(rest) => Ok(if ignored then rest else [files[0]] + rest)
  }

  /** Duplicates keep their multiplicity: a kept file occurs as often as in
      the input, a dropped one not at all. */
  lemma {:induction false} ExcludeCounts(files: seq<SourceFile>, defines: seq<string>)
    requires ExcludeTestFiles(files, defines).Ok?
    ensures forall f :: multiset(ExcludeTestFiles(files, defines).value)[f]
                     == (if Kept(f, defines) then multiset(files)[f] else 0)
  {
    if files != [] {
      ExcludeCounts(files[1..], defines);
      assert files == [files[0]] + files[1..];
      assert multiset(files) == multiset([files[0]]) + multiset(files[1..]);
    }
  }

  /** With more defines, every file kept before is still kept. */
  lemma ExcludeMonotone(files: seq<SourceFile>, fewer: seq<string>, more: seq<string>)
    requires forall x :: x in fewer ==> x in more
    requires ExcludeTestFiles(files, fewer).Ok?
    ensures ExcludeTestFiles(files, more).Ok? ==>
      forall f :: f in ExcludeTestFiles(files, fewer).value ==> f in ExcludeTestFiles(files, more).value
  {
    forall f | f in files
      ensures Kept(f, fewer) ==> Kept(f, more)
    {
      MoreDefinesKeep(f.lines, fewer, more);
    }
  }

  /** What one line contributes to `read_lib_annotations`: the token after
      the first `@BUILD_LIB` token, when there is one. */
  function LineLibs(line: Line): (r: seq<string>)
    ensures |r| <= 1
    ensures r != [] <==> exists j :: FirstAt(Tokens(line), LibMarker, j) && j + 1 < |Tokens(line)|
    ensures r != [] ==> exists j :: FirstAt(Tokens(line), LibMarker, j) && r[0] == Tokens(line)[j + 1]
  {
    match MarkerOnLine(line, LibMarker)
    case Followed(lib) => [lib]
    case _ => []
  }

  /** `read_lib_annotations`: the library ids named by `@BUILD_LIB` lines,
      in line order; a malformed marker line anywhere raises. */
  function ReadLibAnnotations(lines: seq<Line>): (r: Result<seq<string>, ScanError>)
    ensures r.Err? <==> exists i :: 0 <= i < |lines| && MalformedFor(lines[i], LibMarker)
    ensures r.Ok? ==> |r.value| <= |lines|
  {
    if lines == [] then Ok([])
    else
      var rest := ReadLibAnnotations(lines[1..]);
      if MalformedFor(lines[0], LibMarker) then Err(MarkerNotToken(LibMarker))
      else if rest.Err? then rest
      else Ok(LineLibs(lines[0]) + rest.value)
  }

  /** When no line is malformed, the ids are exactly the per-line ids,
      concatenated in line order. */
  lemma {:induction false} LibAnnotationsByLine(lines: seq<Line>)
    requires forall i :: 0 <= i < |lines| ==> !MalformedFor(lines[i], LibMarker)
    ensures ReadLibAnnotations(lines) == Ok(ConcatMap(lines, LineLibs))
  {
    if lines != [] {
      LibAnnotationsByLine(lines[1..]);
    }
  }

  /** The ids of two consecutive runs of lines are those of the first, then
      those of the second. */
  lemma LibAnnotationsAppend(a: seq<Line>, b: seq<Line>)
    requires forall i :: 0 <= i < |a| ==> !MalformedFor(a[i], LibMarker)
    requires forall i :: 0 <= i < |b| ==> !MalformedFor(b[i], LibMarker)
    ensures ReadLibAnnotations(a + b) == Ok(ReadLibAnnotations(a).value + ReadLibAnnotations(b).value)
  {
    LibAnnotationsByLine(a);
    LibAnnotationsByLine(b);
    LibAnnotationsByLine(a + b);
    ConcatMapAppend(a, b, LineLibs);
  }
}

=== FILE: paths.dfy ===
/**
  Path resolution: `find_file` looks a name up in the include directories,
  in order, against the set of paths that exist; `find_source_file` looks up
  the `.c` file of a header, the name being made by Rake's `String#ext`,
  which in turn uses Ruby's `File.extname`. `File.basename(path, '.c')`
  names object files and test executables.

  Paths follow Unix conventions: `/` is the only separator and file names
  compare case-sensitively.
 */
module Paths {
  import opened Wrappers
  import opened Text
  import opened Quoting

  const SourceExt: string := ".c"

  /** `dirs[i] + name` is the first candidate, in directory order, that
      exists. */
  ghost predicate FirstFound(name: string, dirs: seq<string>, files: set<string>, i: int) {
    && 0 <= i < |dirs|
    && dirs[i] + name in files
    && forall j :: 0 <= j < i ==> dirs[j] + name !in files
  }

  /** `find_file`: the first `dir + name` that exists, or nil. */
  function FindFile(name: string, dirs: seq<string>, files: set<string>): (r: Option<string>)
    ensures r.None? <==> forall i :: 0 <= i < |dirs| ==> dirs[i] + name !in files
    ensures r.Some? ==> exists i :: FirstFound(name, dirs, files, i) && r.value == dirs[i] + name
  {
    if dirs == [] then None
    else if dirs[0] + name in files then
      assert FirstFound(name, dirs, files, 0);
      Some(dirs[0] + name)
    else
      var r := FindFile(name, dirs[1..], files);
      assert r.Some? ==> exists i :: FirstFound(name, dirs, files, i) && r.value == dirs[i] + name by {
        if r.Some? {
          var i :| FirstFound(name, dirs[1..], files, i) && r.value == dirs[1..][i] + name;
          assert FirstFound(name, dirs, files, i + 1);
        }
      }
      r
  }

  /** The first existing candidate is the one found: no later directory
      can shadow it. */
  lemma {:induction false} FindFileFirst(name: string, dirs: seq<string>, files: set<string>, i: int)
    requires FirstFound(name, dirs, files, i)
    ensures FindFile(name, dirs, files) == Some(dirs[i] + name)
  {
    if i > 0 {
      assert FirstFound(name, dirs[1..], files, i - 1);
      FindFileFirst(name, dirs[1..], files, i - 1);
    }
  }

  /** Directories appended to the search list matter only when nothing was
      found in the others. */
  lemma {:induction false} FindFileAppend(name: string, dirs: seq<string>, more: seq<string>, files: set<string>)
    ensures FindFile(name, dirs, files).Some? ==> FindFile(name, dirs + more, files) == FindFile(name, dirs, files)
    ensures FindFile(name, dirs, files).None? ==> FindFile(name, dirs + more, files) == FindFile(name, more, files)
  {
    if dirs == [] {
      assert dirs + more == more;
    } else {
      assert (dirs + more)[0] == dirs[0];
      assert (dirs + more)[1..] == dirs[1..] + more;
      FindFileAppend(name, dirs[1..], more, files);
    }
  }

  /** `get_local_include_dirs`: the include directories given as plain
      strings; nested lists are dropped. */
  function LocalIncludeDirs(items: seq<Item>): (r: seq<string>)
    ensures |r| <= |items|
    ensures forall d :: d in r <==> Str(d) in items
  {
    if items == [] then []
    else
      var rest := LocalIncludeDirs(items[1..]);
      assert forall x :: x in items <==> x == items[0] || x in items[1..];
      if items[0].Str? then [items[0].s] + rest else rest
  }

  /** One item gives its directory when it is a plain string, else nothing. */
  lemma LocalIncludeDirsOne(x: Item)
    ensures LocalIncludeDirs([x]) == (if x.Str? then [x.s] else [])
  {
    assert [x][1..] == [];
  }

  /** The directories of two item lists are those of the first, then those
      of the second, each in its own order. */
  lemma {:induction false} LocalIncludeDirsAppend(a: seq<Item>, b: seq<Item>)
    ensures LocalIncludeDirs(a + b) == LocalIncludeDirs(a) + LocalIncludeDirs(b)
  {
    if a == [] {
      assert a + b == b;
    } else {
      assert (a + b)[0] == a[0] && (a + b)[1..] == a[1..] + b;
      LocalIncludeDirsAppend(a[1..], b);
      var h := if a[0].Str? then [a[0].s] else [];
      assert LocalIncludeDirs(a + b) == h + LocalIncludeDirs(a[1..] + b);
      assert LocalIncludeDirs(a) == h + LocalIncludeDirs(a[1..]);
      SeqRegroup(h, LocalIncludeDirs(a[1..]), LocalIncludeDirs(b));
    }
  }

  // ---------------------------------------------------------------------
  // The last component of a path.

  /** Where the last component of `s[..n]` starts: just after the last run
      of slashes that something other than a slash follows. */
  function ComponentStart(s: string, n: nat): (k: nat)
    requires n <= |s|
    ensures k <= n
    ensures k == 0 || (k < n && s[k - 1] == '/' && s[k] != '/')
    decreases n
  {
    if n < 2 then 0
    else if s[n - 2] == '/' && s[n - 1] != '/' then n - 1
    else ComponentStart(s, n - 1)
  }

  /** When `s[n - 1]` is not a slash, the component holds no slash. */
  lemma {:induction false} ComponentHasNoSlash(s: string, n: nat)
    requires 0 < n <= |s| && s[n - 1] != '/'
    ensures forall j :: ComponentStart(s, n) <= j < n ==> s[j] != '/'
    decreases n
  {
    if n >= 2 && !(s[n - 2] == '/' && s[n - 1] != '/') {
      ComponentHasNoSlash(s, n - 1);
    }
  }

  /** A component that starts at `k` and runs slash-free to `n` starts
      exactly there. */
  lemma {:induction false} ComponentStartAt(s: string, k: nat, n: nat)
    requires k < n <= |s|
    requires k == 0 || s[k - 1] == '/'
    requires forall j :: k <= j < n ==> s[j] != '/'
    ensures ComponentStart(s, n) == k
    decreases n
  {
    if n - 1 > k {
      ComponentStartAt(s, k, n - 1);
    }
  }

  /** The number of dots in a row from `i`. */
  function DotRun(s: string, i: nat): (n: nat)
    requires i <= |s|
    ensures i + n <= |s|
    ensures forall j :: i <= j < i + n ==> s[j] == '.'
    ensures i + n == |s| || s[i + n] != '.'
    decreases |s| - i
  {
    if i == |s| || s[i] != '.' then 0 else 1 + DotRun(s, i + 1)
  }

  /** Scan a component from `i` up to the next slash or the end, keeping
      the position of the last dot seen (starting from `dot`). */
  function ScanComponent(s: string, i: nat, dot: Option<nat>): (r: (nat, Option<nat>))
    requires i <= |s|
    ensures i <= r.0 <= |s| && (r.0 == |s| || s[r.0] == '/')
    ensures forall j :: i <= j < r.0 ==> s[j] != '/'
    ensures (forall j :: i <= j < r.0 ==> s[j] != '.') ==> r.1 == dot
    ensures (exists j :: i <= j < r.0 && s[j] == '.') ==>
              && r.1.Some? && i <= r.1.value < r.0 && s[r.1.value] == '.'
              && forall j :: r.1.value < j < r.0 ==> s[j] != '.'
    decreases |s| - i
  {
    if i == |s| || s[i] == '/' then (i, dot)
    else ScanComponent(s, i + 1, if s[i] == '.' then Some(i) else dot)
  }

  /** Ruby's `File.extname`: from the last dot of the last component, with
      dots leading the component not counted and a final dot giving ".". */
  function ExtName(s: string): (e: string)
    ensures e == "" || (e[0] == '.' && '/' !in e && '.' !in e[1..])
    ensures e != "" ==> exists i :: ExtensionAt(s, e, i)
  {
    var k := ComponentStart(s, |s|);
    var r := ScanComponent(s, k + DotRun(s, k), None);
    var e := ExtOfScan(s, k, r.0, r.1);
    assert e != "" ==> ExtensionAt(s, e, r.0 - |e|) by {
      if e != "" {
        NoComponentAfter(s, |s|);
        SlashesToEnd(s, k, r.0);
      }
    }
    e
  }

  /** `e` occurs in `s` at `i`, not at its start, with only slashes after
      it: the tail of the last component. */
  predicate ExtensionAt(s: string, e: string, i: int) {
    0 < i && i + |e| <= |s| && s[i..i + |e|] == e && OnlySlashesFrom(s, i + |e|)
  }

  /** Nothing but slashes from `i` to the end of `s`. */
  predicate OnlySlashesFrom(s: string, i: nat) {
    forall j :: i <= j < |s| ==> s[j] == '/'
  }

  /** After the start of the last component no slash is followed by
      anything else. */
  lemma {:induction false} NoComponentAfter(s: string, n: nat)
    requires n <= |s|
    ensures forall j :: ComponentStart(s, n) < j < n ==> !(s[j - 1] == '/' && s[j] != '/')
    decreases n
  {
    if n >= 2 && !(s[n - 2] == '/' && s[n - 1] != '/') {
      NoComponentAfter(s, n - 1);
    }
  }

  /** Past the end of the last component there are only slashes. */
  lemma {:induction false} SlashesToEnd(s: string, k: nat, p: nat)
    requires k <= p <= |s| && (p == |s| || s[p] == '/')
    requires forall j :: k < j < |s| ==> !(s[j - 1] == '/' && s[j] != '/')
    ensures OnlySlashesFrom(s, p)
    decreases |s| - p
  {
    if p < |s| {
      if p + 1 < |s| {
        assert s[p + 1] == '/';
      }
      SlashesToEnd(s, k, p + 1);
    }
  }

  /** The extension a component scan found: none when there is no dot past
      the leading ones, "." for a final dot, else from the dot to the end. */
  function ExtOfScan(s: string, k: nat, p: nat, dot: Option<nat>): (e: string)
    requires k <= p <= |s|
    requires forall j :: k <= j < p ==> s[j] != '/'
    requires dot.Some? ==>
      k <= dot.value < p && s[dot.value] == '.' && forall j :: dot.value < j < p ==> s[j] != '.'
    ensures e == "" || (e[0] == '.' && '/' !in e && '.' !in e[1..])
    ensures e != "" ==> |e| < p - k && s[p - |e|..p] == e
  {
    if dot.None? || dot.value == k then ""
    else if dot.value + 1 == p then
      assert s[dot.value..p] == ".";
      "."
    else
      assert forall j :: dot.value < j < p ==> s[dot.value..p][j - dot.value] == s[j];
      s[dot.value..p]
  }

  /** Ruby's `String#chomp(ext)` for an extension: the extension is removed
      when the string ends in it. An empty extension removes trailing line
      breaks instead. */
  function ChompExt(s: string, ext: string): (r: string)
    ensures |r| <= |s| && r == s[..|r|]
    ensures ext != "" && EndsWith(s, ext) ==> s == r + ext
    decreases |s|
  {
    if ext == "" then
      if |s| > 0 && s[|s| - 1] == '\n' then
        var t := if |s| > 1 && s[|s| - 2] == '\r' then s[..|s| - 2] else s[..|s| - 1];
        var r := ChompExt(t, ext);
        assert t == s[..|t|];
        r
      else s
    else if EndsWith(s, ext) then s[..|s| - |ext|]
    else s
  }

  /** Rake's `String#ext('.c')`: the extension replaced by `.c`, or added
      when there is none; "." and ".." are left alone. */
  function SourceName(header: string): (r: string)
    ensures header == "." || header == ".." ==> r == header
    ensures header != "." && header != ".." ==> EndsWith(r, SourceExt) && |r| <= |header| + 2
  {
    if header == "." || header == ".." then header
    else
      var stem := ChompExt(header, ExtName(header));
      assert (stem + SourceExt)[|stem|..] == SourceExt;
      stem + SourceExt
  }

  /** `find_source_file`: the `.c` file of a header, looked up like any
      other file. */
  function FindSourceFile(header: string, dirs: seq<string>, files: set<string>): (r: Option<string>)
    ensures r.None? <==> forall i :: 0 <= i < |dirs| ==> dirs[i] + SourceName(header) !in files
    ensures r.Some? ==> exists i :: FirstFound(SourceName(header), dirs, files, i) && r.value == dirs[i] + SourceName(header)
  {
    FindFile(SourceName(header), dirs, files)
  }

  /** The extension of `stem.x` is `.x`, for any stem whose last character
      is neither a slash nor a dot. */
  lemma ExtNameOfHeader(stem: string, x: char)
    requires |stem| > 0 && stem[|stem| - 1] != '/' && stem[|stem| - 1] != '.'
    requires x != '/' && x != '.'
    ensures ExtName(stem + "." + [x]) == "." + [x]
  {
    var s := stem + "." + [x];
    var n := |stem|;
    assert s[n - 1] == stem[n - 1] && s[n] == '.' && s[n + 1] == x;
    ExtNameOfLastDot(s, n);
    assert s[n..] == "." + [x];
  }

  /** A path whose last two characters are a dot and one other character,
      after a character that is neither a slash nor a dot. */
  lemma ExtNameOfLastDot(s: string, n: nat)
    requires 0 < n && n + 2 == |s| && s[n - 1] != '/' && s[n - 1] != '.'
    requires s[n] == '.' && s[n + 1] != '/' && s[n + 1] != '.'
    ensures ExtName(s) == s[n..]
  {
    var k := ComponentStart(s, |s|);
    assert k <= n - 1;
    ComponentHasNoSlash(s, |s|);
    var q := k + DotRun(s, k);
    assert q <= n - 1;
    ScanFromBeforeExtension(s, q, n);
    ExtNameAt(s, k, q, n);
  }

  /** A path without a dot has no extension. */
  lemma ExtNameNoDot(s: string)
    requires '.' !in s
    ensures ExtName(s) == ""
  {
    var k := ComponentStart(s, |s|);
    var r := ScanComponent(s, k + DotRun(s, k), None);
    assert forall j :: k + DotRun(s, k) <= j < r.0 ==> s[j] != '.';
  }

  /** The dots that lead a file name are not an extension: `.name` has
      none when `name` holds no dot and no slash. */
  lemma ExtNameDotFile(name: string)
    requires '.' !in name && '/' !in name
    ensures ExtName("." + name) == ""
  {
    var s := "." + name;
    assert forall j :: 0 <= j < |s| ==> s[j] != '/' by {
      assert forall j :: 1 <= j < |s| ==> s[j] == name[j - 1];
    }
    if |s| > 1 {
      ComponentStartAt(s, 0, |s|);
    }
    assert DotRun(s, 0) == 1 by {
      assert |s| == 1 || s[1] == name[0];
    }
    var r := ScanComponent(s, 1, None);
    assert forall j :: 1 <= j < r.0 ==> s[j] == name[j - 1];
  }

  /** `File.extname` reads the extension from the last dot the scan of the
      last component finds, when it is neither the component's first
      character nor its last. */
  lemma ExtNameAt(s: string, k: nat, q: nat, n: nat)
    requires k == ComponentStart(s, |s|) && q == k + DotRun(s, k)
    requires ScanComponent(s, q, None) == (|s|, Some(n))
    requires n != k && n + 1 != |s|
    requires k <= n < |s| && forall j :: k <= j < |s| ==> s[j] != '/'
    requires s[n] == '.' && forall j :: n < j < |s| ==> s[j] != '.'
    ensures ExtName(s) == s[n..]
  {
    ExtNameIsScan(s, k, q, n);
    ExtOfScanAt(s, k, |s|, n);
  }

  /** `File.extname` of `s` is what the scan of its last component gives. */
  lemma ExtNameIsScan(s: string, k: nat, q: nat, n: nat)
    requires k == ComponentStart(s, |s|) && q == k + DotRun(s, k)
    requires ScanComponent(s, q, None) == (|s|, Some(n))
    ensures k <= n < |s| && forall j :: k <= j < |s| ==> s[j] != '/'
    ensures ExtName(s) == ExtOfScan(s, k, |s|, Some(n))
  {
  }

  lemma ExtOfScanAt(s: string, k: nat, p: nat, n: nat)
    requires k <= n < p <= |s| && n != k && n + 1 != p
    requires forall j :: k <= j < p ==> s[j] != '/'
    requires s[n] == '.' && forall j :: n < j < p ==> s[j] != '.'
    ensures ExtOfScan(s, k, p, Some(n)) == s[n..p]
  {
  }

  /** Scanning the last component from `q` up to a dot at `n` that is
      followed by one character other than a slash or a dot. */
  lemma ScanFromBeforeExtension(s: string, q: nat, n: nat)
    requires q <= n && n + 2 == |s|
    requires s[n] == '.' && s[n + 1] != '/' && s[n + 1] != '.'
    requires forall j :: q <= j < n ==> s[j] != '/'
    ensures ScanComponent(s, q, None) == (|s|, Some(n))
  {
    var r := ScanComponent(s, q, None);
    assert r.0 == |s|;
    assert q <= n < r.0 && s[n] == '.';
  }

  /** The source of `stem.h` is `stem.c`, for any stem whose last character
      is neither a slash nor a dot. */
  lemma SourceNameOfHeader(stem: string, x: char)
    requires |stem| > 0 && stem[|stem| - 1] != '/' && stem[|stem| - 1] != '.'
    requires x != '/' && x != '.'
    ensures SourceName(stem + "." + [x]) == stem + SourceExt
  {
    var s := stem + "." + [x];
    assert |s| >= 3;
    ExtNameOfHeader(stem, x);
    assert s[|s| - 2..] == "." + [x];
    ChompExtOfSuffix(s, "." + [x]);
    assert s[..|s| - 2] == stem;
  }

  /** Chomping an extension the string ends in removes exactly it. */
  lemma ChompExtOfSuffix(s: string, e: string)
    requires e != "" && EndsWith(s, e)
    ensures ChompExt(s, e) == s[..|s| - |e|]
  {
  }

  /** `find_source_file` on a header `stem.h` looks for `stem.c`. */
  lemma FindSourceOfHeader(stem: string, x: char, dirs: seq<string>, files: set<string>)
    requires |stem| > 0 && stem[|stem| - 1] != '/' && stem[|stem| - 1] != '.'
    requires x != '/' && x != '.'
    ensures FindSourceFile(stem + "." + [x], dirs, files) == FindFile(stem + SourceExt, dirs, files)
  {
    SourceNameOfHeader(stem, x);
  }

  /** Ruby's `File.basename(path, '.c')`: the last component without its
      trailing slashes, and without `.c` unless that is all there is. A path
      of slashes only is "/". */
  function BaseName(path: string): (r: string)
    ensures r == "/" || '/' !in r
    ensures path != "" ==> r != ""
  {
    if path == "" then ""
    else if AllSlashes(path) then "/"
    else StripSource(LastComponent(path))
  }

  predicate AllSlashes(s: string) {
    forall j :: 0 <= j < |s| ==> s[j] == '/'
  }

  /** The last component of a path that is not all slashes, without the
      slashes that end the path. */
  function LastComponent(path: string): (c: string)
    requires !AllSlashes(path)
    ensures c != [] && '/' !in c
  {
    var k := ComponentStart(path, |path|);
    var m := ScanComponent(path, k, None).0;
    assert k < m by {
      if k == 0 {
        var j :| 0 <= j < |path| && path[j] != '/';
        if path[0] == '/' {
          assert path[j] != '/' && j > 0;
          ComponentStartPositive(path, j);
          assert false;
        }
      }
    }
    assert forall j :: 0 <= j < m - k ==> path[k..m][j] == path[k + j];
    path[k..m]
  }

  /** A component without its `.c`, unless `.c` is all of it. */
  function StripSource(comp: string): (r: string)
    ensures '/' !in comp ==> '/' !in r
    ensures comp != [] ==> r != []
  {
    if |comp| > 2 && EndsWith(comp, SourceExt) then comp[..|comp| - 2] else comp
  }

  /** A path with a non-slash after a slash has a component that starts
      after position 0. */
  lemma {:induction false} ComponentStartPositive(s: string, j: nat)
    requires 0 < j < |s| && s[j] != '/' && s[0] == '/'
    ensures ComponentStart(s, |s|) > 0
  {
    var i := j;
    while i > 0 && s[i - 1] != '/'
      invariant 0 < i <= j && s[i] != '/'
      decreases i
    {
      i := i - 1;
    }
    assert s[i - 1] == '/' && s[i] != '/';
    ComponentStartAtLeast(s, i, |s|);
  }

  /** The component start is at least any position that follows a slash. */
  lemma {:induction false} ComponentStartAtLeast(s: string, i: nat, n: nat)
    requires 0 < i < n <= |s| && s[i - 1] == '/' && s[i] != '/'
    ensures ComponentStart(s, n) >= i
    decreases n
  {
    if n - 1 > i && !(s[n - 2] == '/' && s[n - 1] != '/') {
      ComponentStartAtLeast(s, i, n - 1);
    }
  }

  /** The base name of `dir/stem.c` is `stem`. */
  lemma BaseNameOfSource(dir: string, stem: string)
    requires dir == "" || dir[|dir| - 1] == '/'
    requires |stem| > 0 && '/' !in stem
    ensures BaseName(dir + stem + SourceExt) == stem
  {
    var s := dir + stem + SourceExt;
    SourceTailSlashFree(dir, stem);
    assert s[|dir|..] == stem + SourceExt;
    BaseNameOfLastComponent(s, |dir|, stem);
  }

  /** A path whose last component, from `k`, is `stem.c` has base name `stem`. */
  lemma BaseNameOfLastComponent(s: string, k: nat, stem: string)
    requires k < |s| && (k == 0 || s[k - 1] == '/')
    requires forall j :: k <= j < |s| ==> s[j] != '/'
    requires stem != [] && s[k..] == stem + SourceExt
    ensures BaseName(s) == stem
  {
    assert s[|s| - 1] != '/';
    ComponentStartAt(s, k, |s|);
    ScanToEnd(s, k);
    BaseNameAt(s, k);
    StripSourceOf(stem);
  }

  /** After `dir`, the path `dir + stem + ".c"` holds no slash. */
  lemma SourceTailSlashFree(dir: string, stem: string)
    requires '/' !in stem
    ensures var s := dir + stem + SourceExt;
      forall j :: |dir| <= j < |s| ==> s[j] != '/'
  {
    var s := dir + stem + SourceExt;
    forall j | |dir| <= j < |s|
      ensures s[j] != '/'
    {
      if j < |dir| + |stem| {
        assert s[j] == stem[j - |dir|];
      } else {
        assert s[j] == SourceExt[j - |dir| - |stem|];
      }
    }
  }

  /** A scan from `k` over slash-free text runs to the end. */
  lemma ScanToEnd(s: string, k: nat)
    requires k <= |s| && forall j :: k <= j < |s| ==> s[j] != '/'
    ensures ScanComponent(s, k, None).0 == |s|
  {
  }

  /** `stem.c` loses its `.c`. */
  lemma StripSourceOf(stem: string)
    requires stem != []
    ensures StripSource(stem + SourceExt) == stem
  {
    var comp := stem + SourceExt;
    assert comp[|comp| - 2..] == SourceExt;
    assert comp[..|comp| - 2] == stem;
  }

  /** The last component of a path, when it runs to the end from `k`. */
  lemma LastComponentAt(s: string, k: nat)
    requires !AllSlashes(s)
    requires k == ComponentStart(s, |s|)
    requires ScanComponent(s, k, None).0 == |s|
    ensures LastComponent(s) == s[k..]
  {
  }

  /** The base name of a path whose last component starts at `k` and runs
      to the end. */
  lemma BaseNameAt(s: string, k: nat)
    requires !AllSlashes(s)
    requires k == ComponentStart(s, |s|)
    requires ScanComponent(s, k, None).0 == |s|
    ensures BaseName(s) == StripSource(s[k..])
  {
    LastComponentAt(s, k);
  }
}

=== FILE: quoting.dfy ===
/**
  Command-fragment quoting: `tackit` wraps one configuration value in double
  quotes when it holds whitespace (unless it is an option, which starts with
  a dash), `squash` writes a list of values as ` <prefix><value>` fragments,
  and the include-path cleanup strips the backslashes IAR-style paths end in.

  The partner of quoting is `Words`, a reader for the fragment of the POSIX
  shell command language these strings stay inside: blanks separate words,
  double quotes group, and every other character that the shell would
  interpret makes the reader give up (`None`).
 */
module Quoting {
  import opened Wrappers
  import opened Text

  /** A configuration list entry: a string, or a nested YAML list of strings. */
  datatype Item = Str(s: string) | Arr(parts: seq<string>)

  /** Ruby's `Array#join` without separator. */
  function Concat(parts: seq<string>): string {
    if parts == [] then "" else parts[0] + Concat(parts[1..])
  }

  /** The text an item stands for: the string, or the joined list. */
  function Display(item: Item): string {
    match item
    case Str(s) => s
    case Arr(parts) => Concat(parts)
  }

  /** Ruby's `/^-/`: some line of `s` starts with a dash. */
  predicate DashLed(s: string) {
    exists i :: 0 <= i < |s| && s[i] == '-' && (i == 0 || s[i - 1] == '\n')
  }

  /** `tackit` quotes lists, and strings with whitespace that are not options. */
  predicate NeedsQuotes(item: Item) {
    item.Arr? || (!DashLed(item.s) && HasSpace(item.s))
  }

  function Quoted(s: string): string {
    "\"" + s + "\""
  }

  /** `tackit`: the item's text, in double quotes when it needs them. */
  function Tackit(item: Item): (r: string)
    ensures NeedsQuotes(item) ==> r == Quoted(Display(item))
    ensures !NeedsQuotes(item) ==> r == Display(item)
  {
    match item
    case Arr(parts) => Quoted(Concat(parts))
    case Str(s) =>
      if DashLed(s) then s
      else if HasSpace(s) then Quoted(s)
      else s
  }

  /** `squash`: each item as ` <prefix><tackit(item)>`, in order. */
  function Squash(prefix: string, items: seq<Item>): (r: string)
    ensures r == [] <==> items == []
    ensures r != [] ==> r[0] == ' '
  {
    if items == [] then ""
    else " " + prefix + Tackit(items[0]) + Squash(prefix, items[1..])
  }

  /** Squashing two lists is squashing each in turn. */
  lemma {:induction false} SquashAppend(prefix: string, a: seq<Item>, b: seq<Item>)
    ensures Squash(prefix, a + b) == Squash(prefix, a) + Squash(prefix, b)
  {
    if a == [] {
      assert a + b == b;
    } else {
      assert (a + b)[1..] == a[1..] + b;
      SquashAppend(prefix, a[1..], b);
    }
  }

  // ---------------------------------------------------------------------
  // Reading a command line back into words.

  /** The blanks that separate words. */
  predicate Blank(c: char) {
    c == ' ' || c == '\t'
  }

  /** Characters with a meaning of their own outside quotes (quoting,
      expansion, redirection, globbing, comments, command separators). */
  predicate Unsupported(c: char) {
    c in "'\\$`;&|<>()*?[#~{}\n"
  }

  /** Characters with a meaning of their own between double quotes. */
  predicate QuoteSpecial(c: char) {
    c in "\"\\$`"
  }

  /** The words read so far, followed by those of the rest, if it reads. */
  function Prepend(ws: seq<string>, o: Option<seq<string>>): Option<seq<string>> {
    match o
    case None => None
    case Some(v) => Some(ws + v)
  }

  /** Read `s` as shell words; `cur` is the word being built, `quoted` says
      whether a double quote is open. */
  function Scan(s: string, cur: Option<string>, quoted: bool): Option<seq<string>>
    decreases |s|
  {
    if s == [] then
      if quoted then None
      else if cur.Some? then Some([cur.value])
      else Some([])
    else
      var c := s[0];
      if quoted then
        if c == '"' then Scan(s[1..], cur, false)
        else if QuoteSpecial(c) then None
        else Scan(s[1..], Some(cur.GetOr("") + [c]), true)
      else if c == '"' then Scan(s[1..], Some(cur.GetOr("")), true)
      else if Blank(c) then
        if cur.Some? then Prepend([cur.value], Scan(s[1..], None, false))
        else Scan(s[1..], None, false)
      else if Unsupported(c) then None
      else Scan(s[1..], Some(cur.GetOr("") + [c]), false)
  }

  /** The words a shell makes of a command line. */
  function Words(s: string): Option<seq<string>> {
    Scan(s, None, false)
  }

  /** Text the shell reads as itself outside quotes. */
  predicate PlainText(s: string) {
    forall i :: 0 <= i < |s| ==> !IsSpace(s[i]) && s[i] != '"' && !Unsupported(s[i])
  }

  /** Text the shell reads as itself between double quotes. */
  predicate QuotableText(s: string) {
    forall i :: 0 <= i < |s| ==> !QuoteSpecial(s[i])
  }

  /** `squash` writes this item as exactly one shell word. */
  predicate OneWord(prefix: string, item: Item) {
    if NeedsQuotes(item) then QuotableText(Display(item))
    else PlainText(Display(item)) && |prefix + Display(item)| > 0
  }

  /** The word each item should become: prefix, then the item's text. */
  function ItemWords(prefix: string, items: seq<Item>): (r: seq<string>)
    ensures |r| == |items|
    ensures forall i :: 0 <= i < |items| ==> r[i] == prefix + Display(items[i])
  {
    if items == [] then [] else [prefix + Display(items[0])] + ItemWords(prefix, items[1..])
  }

  /** The words of two item lists are those of each in turn. */
  lemma {:induction false} ItemWordsAppend(p: string, a: seq<Item>, b: seq<Item>)
    ensures ItemWords(p, a + b) == ItemWords(p, a) + ItemWords(p, b)
  {
    if a == [] {
      assert a + b == b;
    } else {
      var h := a[0];
      var x := a[1..];
      var w := [p + Display(h)];
      assert ItemWords(p, a + b) == w + ItemWords(p, x + b) by {
        assert a + b == [h] + (x + b);
        ItemWordsCons(p, h, x + b, a + b);
      }
      assert ItemWords(p, a) == w + ItemWords(p, x) by {
        assert a == [h] + x;
        ItemWordsCons(p, h, x, a);
      }
      ItemWordsAppend(p, x, b);
      SeqRegroup(w, ItemWords(p, x), ItemWords(p, b));
    }
  }

  lemma ItemWordsCons(p: string, h: Item, x: seq<Item>, c: seq<Item>)
    requires c == [h] + x
    ensures ItemWords(p, c) == [p + Display(h)] + ItemWords(p, x)
  {
    assert c[0] == h && c[1..] == x;
  }

  /** `cur` with `w` appended, where an empty `w` starts no word. */
  function Extend(cur: Option<string>, w: string): Option<string> {
    if w == [] then cur else Some(cur.GetOr("") + w)
  }

  lemma {:induction false} ScanPlain(w: string, cur: Option<string>, t: string)
    requires PlainText(w)
    ensures Scan(w + t, cur, false) == Scan(t, Extend(cur, w), false)
    decreases |w|
  {
    if w == [] {
      assert w + t == t;
    } else {
      var c := w[0];
      assert !IsSpace(c) && c != '"' && !Unsupported(c);
      var s := w + t;
      assert s[0] == c && s[1..] == w[1..] + t;
      var cur' := Some(cur.GetOr("") + [c]);
      assert Scan(s, cur, false) == Scan(w[1..] + t, cur', false);
      assert forall i :: 0 <= i < |w[1..]| ==> w[1..][i] == w[i + 1];
      ScanPlain(w[1..], cur', t);
      if w[1..] == [] {
        assert w == [c];
      } else {
        assert cur.GetOr("") + [c] + w[1..] == cur.GetOr("") + w;
      }
    }
  }

  lemma {:induction false} ScanQuotable(q: string, c: string, t: string)
    requires QuotableText(q)
    ensures Scan(q + t, Some(c), true) == Scan(t, Some(c + q), true)
    decreases |q|
  {
    if q != [] {
      assert (q + t)[0] == q[0] && (q + t)[1..] == q[1..] + t;
      ScanQuotable(q[1..], c + [q[0]], t);
      assert c + [q[0]] + q[1..] == c + q;
    } else {
      assert q + t == t;
      assert c + q == c;
    }
  }

  /** A finished word is emitted when a blank or the end follows it. */
  lemma ScanEndWord(w: string, t: string)
    requires t == [] || Blank(t[0])
    ensures Scan(t, Some(w), false) == Prepend([w], Scan(t, None, false))
  {
    if t == [] {
      assert [w] + [] == [w];
    }
  }

  lemma ExtendTwice(prefix: string, d: string)
    requires |prefix + d| > 0
    ensures Extend(Extend(None, prefix), d) == Some(prefix + d)
  {
    if d == [] {
      assert prefix + d == prefix;
    } else if prefix == [] {
      assert prefix + d == d;
      assert "" + d == d;
    } else {
      assert "" + prefix == prefix;
    }
  }

  lemma ScanPlainItem(prefix: string, d: string, t: string)
    requires PlainText(prefix) && PlainText(d) && |prefix + d| > 0
    requires t == [] || Blank(t[0])
    ensures Scan(prefix + (d + t), None, false) == Prepend([prefix + d], Scan(t, None, false))
  {
    ScanPlain(prefix, None, d + t);
    ScanPlain(d, Extend(None, prefix), t);
    ExtendTwice(prefix, d);
    ScanEndWord(prefix + d, t);
  }

  lemma ScanQuotedItem(prefix: string, d: string, t: string)
    requires PlainText(prefix) && QuotableText(d)
    requires t == [] || Blank(t[0])
    ensures Scan(prefix + (Quoted(d) + t), None, false) == Prepend([prefix + d], Scan(t, None, false))
  {
    var y := "\"" + (d + ("\"" + t));
    assert Quoted(d) + t == y;
    ScanPlain(prefix, None, y);
    var cur := Extend(None, prefix);
    assert cur.GetOr("") == prefix;
    assert y[0] == '"' && y[1..] == d + ("\"" + t);
    assert Scan(y, cur, false) == Scan(d + ("\"" + t), Some(prefix), true);
    ScanQuotable(d, prefix, "\"" + t);
    assert ("\"" + t)[0] == '"' && ("\"" + t)[1..] == t;
    assert Scan("\"" + t, Some(prefix + d), true) == Scan(t, Some(prefix + d), false);
    ScanEndWord(prefix + d, t);
  }

  lemma ScanItem(prefix: string, item: Item, t: string)
    requires PlainText(prefix) && OneWord(prefix, item)
    requires t == [] || Blank(t[0])
    ensures Scan(" " + prefix + Tackit(item) + t, None, false)
         == Prepend([prefix + Display(item)], Scan(t, None, false))
  {
    var x := prefix + (Tackit(item) + t);
    LeadBlankRegroup(prefix, Tackit(item), t);
    assert Scan(" " + x, None, false) == Scan(x, None, false) by {
      assert (" " + x)[0] == ' ' && (" " + x)[1..] == x;
    }
    if NeedsQuotes(item) {
      ScanQuotedItem(prefix, Display(item), t);
    } else {
      ScanPlainItem(prefix, Display(item), t);
    }
  }

  lemma LeadBlankRegroup(p: string, k: string, t: string)
    ensures " " + p + k + t == " " + (p + (k + t))
  {
  }

  /** A squashed list reads back as one word per item, prefix included,
      followed by the words of whatever comes after it. */
  lemma {:induction false} ScanSquash(prefix: string, items: seq<Item>, t: string)
    requires PlainText(prefix)
    requires forall i :: 0 <= i < |items| ==> OneWord(prefix, items[i])
    requires t == [] || Blank(t[0])
    ensures Scan(Squash(prefix, items) + t, None, false)
         == Prepend(ItemWords(prefix, items), Scan(t, None, false))
  {
    if items == [] {
      assert Squash(prefix, items) + t == t;
      PrependNothing(Scan(t, None, false));
    } else {
      var rest := Squash(prefix, items[1..]) + t;
      ScanSquash(prefix, items[1..], t);
      ScanItem(prefix, items[0], rest);
      SquashHeadRegroup(prefix, items, t);
      PrependTwice([prefix + Display(items[0])], ItemWords(prefix, items[1..]), Scan(t, None, false));
    }
  }

  lemma PrependNothing(o: Option<seq<string>>)
    ensures Prepend([], o) == o
  {
    if o.Some? {
      assert [] + o.value == o.value;
    }
  }

  lemma PrependTwice(a: seq<string>, b: seq<string>, o: Option<seq<string>>)
    ensures Prepend(a, Prepend(b, o)) == Prepend(a + b, o)
  {
    if o.Some? {
      assert a + (b + o.value) == a + b + o.value;
    }
  }

  /** A squashed list followed by `t` is its first item followed by the rest. */
  lemma SquashHeadRegroup(prefix: string, items: seq<Item>, t: string)
    requires items != []
    ensures Squash(prefix, items) + t == " " + prefix + Tackit(items[0]) + (Squash(prefix, items[1..]) + t)
  {
    SeqRegroup(" " + prefix + Tackit(items[0]), Squash(prefix, items[1..]), t);
  }

  /** `squash` is read back by the shell as exactly the prefixed items. */
  lemma WordsOfSquash(prefix: string, items: seq<Item>)
    requires PlainText(prefix)
    requires forall i :: 0 <= i < |items| ==> OneWord(prefix, items[i])
    ensures Words(Squash(prefix, items)) == Some(ItemWords(prefix, items))
  {
    ScanSquash(prefix, items, "");
    assert Squash(prefix, items) + "" == Squash(prefix, items);
    assert ItemWords(prefix, items) + [] == ItemWords(prefix, items);
  }

  /** An option with whitespace is passed unquoted, so the shell splits it:
      `-x c` in the options list reaches the compiler as two words. */
  lemma DashLedOptionSplits(a: string, b: string)
    requires |a| > 0 && a[0] == '-' && PlainText(a) && PlainText(b) && |b| > 0
    ensures Words(Squash("", [Str(a + " " + b)])) == Some([a, b])
  {
    var s := a + " " + b;
    assert DashLed(s) by { assert s[0] == '-'; }
    assert Tackit(Str(s)) == s;
    assert Squash("", [Str(s)]) == " " + s;
    assert (" " + s)[0] == ' ' && (" " + s)[1..] == s;
    assert Words(" " + s) == Scan(s, None, false);
    assert s == a + (" " + b);
    ScanPlain(a, None, " " + b);
    assert "" + a == a;
    assert Extend(None, a) == Some(a);
    assert (" " + b)[0] == ' ' && (" " + b)[1..] == b;
    assert Scan(" " + b, Some(a), false) == Prepend([a], Scan(b, None, false));
    ScanPlain(b, None, "");
    assert b + "" == b;
    assert "" + b == b;
    assert Scan(b, None, false) == Some([b]);
    assert [a] + [b] == [a, b];
  }

  // ---------------------------------------------------------------------
  // Include-path cleanup: `gsub(/\\ /, ' ')`, `gsub(/\\"/, '"')`,
  // `gsub(/\\$/, '')`.

  /** Ruby's `gsub` of a two-character pattern: occurrences found scanning
      left to right, each replaced by `rep`. */
  function ReplacePair(s: string, pat: string, rep: string): string
    requires |pat| == 2
  {
    if |s| < 2 then s
    else if s[..2] == pat then rep + ReplacePair(s[2..], pat, rep)
    else [s[0]] + ReplacePair(s[1..], pat, rep)
  }

  /** `gsub(/\\$/, '')`: drop each backslash that ends a line. */
  function DropLineEndSlashes(s: string): string {
    if s == [] then []
    else if s[0] == '\\' && (|s| == 1 || s[1] == '\n') then DropLineEndSlashes(s[1..])
    else [s[0]] + DropLineEndSlashes(s[1..])
  }

  /** `r` is `s` with some backslashes deleted: every other character
      keeps its count. */
  ghost predicate DropsOnlySlashes(s: string, r: string) {
    forall ch :: && multiset(r)[ch] <= multiset(s)[ch]
                 && (ch != '\\' ==> multiset(r)[ch] == multiset(s)[ch])
  }

  /** The cleanup applied to a squashed include list; it never lengthens
      the text. */
  function Cleanup(s: string): (r: string)
    ensures |r| <= |s|
  {
    var r1 := ReplacePair(s, "\\ ", " ");
    var r2 := ReplacePair(r1, "\\\"", "\"");
    ReplaceShorter(s, "\\ ", " ");
    ReplaceShorter(r1, "\\\"", "\"");
    DropShorter(r2);
    DropLineEndSlashes(r2)
  }

  lemma {:induction false} ReplaceShorter(s: string, pat: string, rep: string)
    requires |pat| == 2 && |rep| <= 2
    ensures |ReplacePair(s, pat, rep)| <= |s|
    decreases |s|
  {
    if |s| >= 2 {
      ReplaceShorter(s[2..], pat, rep);
      ReplaceShorter(s[1..], pat, rep);
    }
  }

  lemma {:induction false} DropShorter(s: string)
    ensures |DropLineEndSlashes(s)| <= |s|
    decreases |s|
  {
    if s != [] {
      DropShorter(s[1..]);
    }
  }

  /** The cleanup deletes backslashes and nothing else. */
  lemma CleanupDeletesOnlySlashes(s: string)
    ensures DropsOnlySlashes(s, Cleanup(s))
  {
    var r1 := ReplacePair(s, "\\ ", " ");
    var r2 := ReplacePair(r1, "\\\"", "\"");
    forall ch
      ensures multiset(Cleanup(s))[ch] <= multiset(s)[ch]
      ensures ch != '\\' ==> multiset(Cleanup(s))[ch] == multiset(s)[ch]
    {
      ReplaceCounts(s, "\\ ", " ", ch);
      ReplaceCounts(r1, "\\\"", "\"", ch);
      DropCounts(r2, ch);
    }
  }

  /** Replacing a backslash pair by its second character deletes the
      backslash and keeps every other character. */
  lemma {:induction false} ReplaceCounts(s: string, pat: string, rep: string, ch: char)
    requires |rep| == 1 && pat == ['\\'] + rep
    ensures multiset(ReplacePair(s, pat, rep))[ch] <= multiset(s)[ch]
    ensures ch != '\\' ==> multiset(ReplacePair(s, pat, rep))[ch] == multiset(s)[ch]
    decreases |s|
  {
    if |s| >= 2 {
      if s[..2] == pat {
        ReplaceCounts(s[2..], pat, rep, ch);
        assert s == pat + s[2..];
        CountsStep(s, s[2..], ReplacePair(s, pat, rep), ReplacePair(s[2..], pat, rep), pat, rep, ch);
      } else {
        ReplaceCounts(s[1..], pat, rep, ch);
        assert s == [s[0]] + s[1..];
        CountsStep(s, s[1..], ReplacePair(s, pat, rep), ReplacePair(s[1..], pat, rep), [s[0]], [s[0]], ch);
      }
    }
  }

  /** Putting `a` in front of `t` and `b` in front of `u`, where `b` is `a`
      or `a` without a leading backslash, keeps the count relation. */
  lemma CountsStep(s: string, t: string, r: string, u: string, a: string, b: string, ch: char)
    requires s == a + t && r == b + u
    requires a == b || a == ['\\'] + b
    requires multiset(u)[ch] <= multiset(t)[ch]
    requires ch != '\\' ==> multiset(u)[ch] == multiset(t)[ch]
    ensures multiset(r)[ch] <= multiset(s)[ch]
    ensures ch != '\\' ==> multiset(r)[ch] == multiset(s)[ch]
  {
  }

  /** Dropping line-end backslashes keeps every other character. */
  lemma {:induction false} DropCounts(s: string, ch: char)
    ensures multiset(DropLineEndSlashes(s))[ch] <= multiset(s)[ch]
    ensures ch != '\\' ==> multiset(DropLineEndSlashes(s))[ch] == multiset(s)[ch]
    decreases |s|
  {
    if s != [] {
      DropCounts(s[1..], ch);
      assert s == [s[0]] + s[1..];
    }
  }

  lemma {:induction false} ReplaceSkips(u: string, v: string, pat: string, rep: string)
    requires |pat| == 2 && pat[0] !in u
    ensures ReplacePair(u + v, pat, rep) == u + ReplacePair(v, pat, rep)
    decreases |u|
  {
    if u == [] {
      assert u + v == v;
    } else if |u + v| >= 2 {
      assert (u + v)[0] == u[0];
      assert (u + v)[1..] == u[1..] + v;
      ReplaceSkips(u[1..], v, pat, rep);
    }
  }

  lemma ReplaceHit(v: string, pat: string, rep: string)
    requires |pat| == 2
    ensures ReplacePair(pat + v, pat, rep) == rep + ReplacePair(v, pat, rep)
  {
    assert (pat + v)[..2] == pat;
    assert (pat + v)[2..] == v;
  }

  lemma {:induction false} DropSkips(u: string, v: string)
    requires '\\' !in u
    ensures DropLineEndSlashes(u + v) == u + DropLineEndSlashes(v)
    decreases |u|
  {
    if u == [] {
      assert u + v == v;
    } else {
      assert (u + v)[0] == u[0];
      assert (u + v)[1..] == u[1..] + v;
      DropSkips(u[1..], v);
    }
  }

  /** Text without backslashes passes the cleanup unchanged. */
  lemma CleanupKeepsSlashFree(s: string)
    requires '\\' !in s
    ensures Cleanup(s) == s
  {
    ReplaceSkips(s, "", "\\ ", " ");
    ReplaceSkips(s, "", "\\\"", "\"");
    DropSkips(s, "");
    assert s + "" == s;
  }

  /** An IAR-style path that ends in one backslash loses it. */
  function StripSlash(item: Item): Item {
    if item.Str? && |item.s| > 0 && item.s[|item.s| - 1] == '\\' then Str(item.s[..|item.s| - 1])
    else item
  }

  /** A path whose only backslash, if any, is its last character. */
  predicate Cleanable(item: Item) {
    '\\' !in Display(StripSlash(item))
  }

  /** Removing the trailing backslash does not change how `tackit` quotes. */
  lemma StripKeepsQuoting(w: string)
    ensures NeedsQuotes(Str(w + "\\")) == NeedsQuotes(Str(w))
  {
    var s := w + "\\";
    if DashLed(s) {
      var i :| 0 <= i < |s| && s[i] == '-' && (i == 0 || s[i - 1] == '\n');
      assert i < |w| && w[i] == '-' && (i == 0 || w[i - 1] == '\n');
    }
    if DashLed(w) {
      var i :| 0 <= i < |w| && w[i] == '-' && (i == 0 || w[i - 1] == '\n');
      assert s[i] == '-' && (i == 0 || s[i - 1] == '\n');
    }
    if HasSpace(s) {
      var i :| 0 <= i < |s| && IsSpace(s[i]);
      assert i < |w| && IsSpace(w[i]);
    }
    if HasSpace(w) {
      var i :| 0 <= i < |w| && IsSpace(w[i]);
      assert IsSpace(s[i]);
    }
  }

  lemma CleanupSlashFreeSegment(seg: string, t: string)
    requires '\\' !in seg
    ensures Cleanup(seg + t) == seg + Cleanup(t)
  {
    ReplaceSkips(seg, t, "\\ ", " ");
    ReplaceSkips(seg, ReplacePair(t, "\\ ", " "), "\\\"", "\"");
    DropSkips(seg, ReplacePair(ReplacePair(t, "\\ ", " "), "\\\"", "\""));
  }

  /** An unquoted path `w\`: the backslash goes in the first pass when a
      blank follows it, and in the last when it ends the line. */
  lemma CleanupPlainSegment(u: string, t: string)
    requires '\\' !in u
    requires t == [] || t[0] == ' '
    ensures Cleanup(u + "\\" + t) == u + Cleanup(t)
  {
    if t == [] {
      assert u + "\\" + t == u + "\\";
      ReplaceSkips(u, "\\", "\\ ", " ");
      assert ReplacePair("\\", "\\ ", " ") == "\\";
      ReplaceSkips(u, "\\", "\\\"", "\"");
      assert ReplacePair("\\", "\\\"", "\"") == "\\";
      DropSkips(u, "\\");
      assert DropLineEndSlashes("\\") == [];
      assert u + [] == u;
      assert Cleanup(t) == [];
    } else {
      var t' := t[1..];
      assert t == " " + t';
      assert u + "\\" + t == u + ("\\ " + t');
      ReplaceSkips(u, "\\ " + t', "\\ ", " ");
      ReplaceHit(t', "\\ ", " ");
      ReplaceSkips(" ", t', "\\ ", " ");
      var r1 := ReplacePair(t, "\\ ", " ");
      assert ReplacePair(u + "\\" + t, "\\ ", " ") == u + r1;
      ReplaceSkips(u, r1, "\\\"", "\"");
      DropSkips(u, ReplacePair(r1, "\\\"", "\""));
    }
  }

  /** A quoted path `"w\"`: the second pass turns `\"` into `"`. */
  lemma CleanupQuotedSegment(u: string, t: string)
    requires '\\' !in u
    ensures Cleanup(u + "\\\"" + t) == u + "\"" + Cleanup(t)
  {
    var r1 := ReplacePair(t, "\\ ", " ");
    var r2 := ReplacePair(r1, "\\\"", "\"");
    FirstPassKeepsQuote(u, t);
    SecondPassDropsSlash(u, r1);
    assert '\\' !in u + "\"";
    DropSkips(u + "\"", r2);
  }

  /** The first pass leaves `\"` alone. */
  lemma FirstPassKeepsQuote(u: string, t: string)
    requires '\\' !in u
    ensures ReplacePair(u + "\\\"" + t, "\\ ", " ") == u + "\\\"" + ReplacePair(t, "\\ ", " ")
  {
    assert u + "\\\"" + t == u + ("\\\"" + t);
    ReplaceSkips(u, "\\\"" + t, "\\ ", " ");
    QuoteSurvivesFirstPass(t);
    var r1 := ReplacePair(t, "\\ ", " ");
    assert u + ("\\\"" + r1) == u + "\\\"" + r1;
  }

  lemma QuoteSurvivesFirstPass(t: string)
    ensures ReplacePair("\\\"" + t, "\\ ", " ") == "\\\"" + ReplacePair(t, "\\ ", " ")
  {
    var q := "\\\"" + t;
    assert q[..2] == "\\\"" && q[0] == '\\' && q[1..] == "\"" + t;
    ReplaceSkips("\"", t, "\\ ", " ");
    var r1 := ReplacePair(t, "\\ ", " ");
    assert ['\\'] + ("\"" + r1) == "\\\"" + r1;
  }

  /** The second pass turns `\"` into `"`. */
  lemma SecondPassDropsSlash(u: string, r1: string)
    requires '\\' !in u
    ensures ReplacePair(u + "\\\"" + r1, "\\\"", "\"") == u + "\"" + ReplacePair(r1, "\\\"", "\"")
  {
    assert u + "\\\"" + r1 == u + ("\\\"" + r1);
    ReplaceSkips(u, "\\\"" + r1, "\\\"", "\"");
    ReplaceHit(r1, "\\\"", "\"");
    var r2 := ReplacePair(r1, "\\\"", "\"");
    assert u + ("\"" + r2) == u + "\"" + r2;
  }

  lemma CleanupSegment(prefix: string, item: Item, t: string)
    requires '\\' !in prefix && Cleanable(item)
    requires t == [] || t[0] == ' '
    ensures Cleanup(" " + prefix + Tackit(item) + t)
         == " " + prefix + Tackit(StripSlash(item)) + Cleanup(t)
  {
    if StripSlash(item) == item {
      CleanupSlashFreeSegment(" " + prefix + Tackit(item), t);
    } else {
      var w := item.s[..|item.s| - 1];
      assert item.s == w + "\\";
      StripKeepsQuoting(w);
      if NeedsQuotes(item) {
        CleanupQuotedItem(prefix, w, t);
      } else {
        CleanupPlainItem(prefix, w, t);
      }
    }
  }

  /** A quoted directory `"w\"` cleans up to `"w"`. */
  lemma CleanupQuotedItem(prefix: string, w: string, t: string)
    requires '\\' !in prefix && '\\' !in w
    requires NeedsQuotes(Str(w)) && NeedsQuotes(Str(w + "\\"))
    ensures Cleanup(" " + prefix + Tackit(Str(w + "\\")) + t) == " " + prefix + Tackit(Str(w)) + Cleanup(t)
  {
    var u := " " + prefix + "\"" + w;
    assert '\\' !in u;
    assert " " + prefix + Quoted(w + "\\") + t == u + "\\\"" + t;
    CleanupQuotedSegment(u, t);
    assert u + "\"" == " " + prefix + Quoted(w);
  }

  /** An unquoted directory `w\` cleans up to `w`. */
  lemma CleanupPlainItem(prefix: string, w: string, t: string)
    requires '\\' !in prefix && '\\' !in w
    requires t == [] || t[0] == ' '
    requires !NeedsQuotes(Str(w)) && !NeedsQuotes(Str(w + "\\"))
    ensures Cleanup(" " + prefix + Tackit(Str(w + "\\")) + t) == " " + prefix + Tackit(Str(w)) + Cleanup(t)
  {
    var u := " " + prefix + w;
    assert '\\' !in u;
    assert " " + prefix + (w + "\\") + t == u + "\\" + t;
    CleanupPlainSegment(u, t);
  }

  /** The include cleanup on a squashed list of directories is squashing the
      directories with their trailing backslash removed. */
  lemma {:induction false} CleanupOfSquash(prefix: string, items: seq<Item>)
    requires '\\' !in prefix
    requires forall i :: 0 <= i < |items| ==> Cleanable(items[i])
    ensures Cleanup(Squash(prefix, items)) == Squash(prefix, StripAll(items))
  {
    if items == [] {
      assert Cleanup("") == "";
    } else {
      var t := Squash(prefix, items[1..]);
      CleanupOfSquash(prefix, items[1..]);
      CleanupSegment(prefix, items[0], t);
      assert StripAll(items)[1..] == StripAll(items[1..]);
    }
  }

  function StripAll(items: seq<Item>): (r: seq<Item>)
    ensures |r| == |items|
    ensures forall i :: 0 <= i < |items| ==> r[i] == StripSlash(items[i])
  {
    if items == [] then [] else [StripSlash(items[0])] + StripAll(items[1..])
  }
}

=== FILE: results.dfy ===
/**
  Judging a test run: the executable's output, with one trailing line break
  chomped off, passes when some line of it ends in `OK` (Ruby's `/OK$/m`,
  where `$` matches before every "\n" and at the end). The verdict names
  the result file, `<build_path><test>.testpass` or `.testfail`, which then
  holds the chomped output.
 */
module Results {
  import opened Text

  const PassSuffix: string := ".testpass"
  const FailSuffix: string := ".testfail"

  /** Ruby's `String#chomp`: one trailing "\n", "\r\n" or "\r" removed. */
  function Chomp(s: string): (r: string)
    ensures |r| <= |s| <= |r| + 2 && r == s[..|r|]
    ensures r == s <==> !(EndsWith(s, "\n") || EndsWith(s, "\r"))
    ensures |r| + 2 == |s| ==> s[|r|..] == "\r\n"
    ensures EndsWith(s, "\r\n") ==> |r| + 2 == |s|
  {
    if EndsWith(s, "\r\n") then s[..|s| - 2]
    else if EndsWith(s, "\n") || EndsWith(s, "\r") then s[..|s| - 1]
    else s
  }

  /** An `OK` at position `i` that ends a line. */
  predicate OkAt(out: string, i: int) {
    && 0 <= i && i + 2 <= |out|
    && out[i] == 'O' && out[i + 1] == 'K'
    && (i + 2 == |out| || out[i + 2] == '\n')
  }

  /** `out.match(/OK$/m)` finds something. */
  predicate Passes(out: string) {
    exists i | 0 <= i < |out| :: OkAt(out, i)
  }

  /** Find the first `OK` that ends a line, as `match` does. */
  method FindOk(out: string) returns (found: bool, at: nat)
    ensures found <==> Passes(out)
    ensures found ==> OkAt(out, at) && forall j :: 0 <= j < at ==> !OkAt(out, j)
  {
    var i := 0;
    while i + 2 <= |out|
      invariant 0 <= i <= |out|
      invariant forall j :: 0 <= j < i ==> !OkAt(out, j)
    {
      if out[i] == 'O' && out[i + 1] == 'K' && (i + 2 == |out| || out[i + 2] == '\n') {
        assert OkAt(out, i);
        return true, i;
      }
      i := i + 1;
    }
    assert forall j :: i <= j < |out| ==> !OkAt(out, j);
    return false, 0;
  }

  /** The result file of a run: its path, which carries the verdict, and the
      chomped output it holds. */
  function ResultFile(buildPath: string, testBase: string, raw: string): (r: (string, string))
    ensures r.1 == Chomp(raw)
    ensures StartsWith(r.0, buildPath + testBase)
    ensures |r.0| == |buildPath + testBase| + |PassSuffix|
    ensures EndsWith(r.0, PassSuffix) <==> Passes(Chomp(raw))
    ensures EndsWith(r.0, FailSuffix) <==> !Passes(Chomp(raw))
  {
    var output := Chomp(raw);
    var stem := buildPath + testBase;
    var suffix := if Passes(output) then PassSuffix else FailSuffix;
    assert (stem + suffix)[..|stem|] == stem;
    assert (stem + suffix)[|stem + suffix| - 9..] == suffix;
    (stem + suffix, output)
  }

  /** A passing verdict survives the chomp. */
  lemma PassesAfterChomp(s: string)
    requires Passes(s)
    ensures Passes(Chomp(s))
  {
    var i :| 0 <= i < |s| && OkAt(s, i);
    var r := Chomp(s);
    if i + 2 < |r| {
      assert OkAt(r, i);
    } else {
      assert r[i] == 'O' && r[i + 1] == 'K';
      assert OkAt(r, i);
    }
  }

  /** Output whose last line is `OK` passes, whatever comes before it. */
  lemma OkLastLinePasses(body: string)
    ensures Passes(Chomp(body + "OK\n"))
  {
    var s := body + "OK\n";
    assert s[|s| - 2] == 'K' && s[|s| - 1] == '\n';
    assert !EndsWith(s, "\r\n") && EndsWith(s, "\n");
    assert s[..|s| - 1] == body + "OK";
    assert OkAt(body + "OK", |body|);
  }

  /** Output without `OK` anywhere fails. */
  lemma NoOkFails(out: string)
    requires !Contains(out, "OK")
    ensures !Passes(out)
  {
    if Passes(out) {
      var i :| 0 <= i < |out| && OkAt(out, i);
      assert OccursAt(out, "OK", i);
    }
  }

  /** A Windows line ending hides the `OK` from `$`; only the chomp makes
      such output pass. */
  lemma CarriageReturnNeedsChomp()
    ensures !Passes("OK\r\n") && Passes(Chomp("OK\r\n"))
  {
    assert !OkAt("OK\r\n", 0);
    assert !OkAt("OK\r\n", 1) && !OkAt("OK\r\n", 2) && !OkAt("OK\r\n", 3);
    assert Chomp("OK\r\n") == "OK";
    assert OkAt("OK", 0);
  }
}

=== FILE: testplan.dfy ===
/**
  One unit test's build as `run_tests` lays it out, and the choice of tests
  `parse_and_run_tests` makes before that.

  The run first settles the compiler section: `TEST` and the command-line
  defines join the define items, and the minimal output style adds `-w`.
  Then, per test file: every header of the test (plus `cmock.h`) whose name
  holds `mock_` has its real header handed to CMock; every header with a
  `.c` beside it in the include dirs is compiled; the `@BUILD_LIB` groups
  are compiled with their extra options; the runner and the test itself
  are compiled last. The objects, in compile order, are linked into the
  test's executable.
 */
module TestPlan {
  import opened Wrappers
  import opened Text
  import opened Quoting
  import opened Headers
  import opened Markers
  import opened Args
  import opened Paths
  import opened Commands

  const TestDefine: string := "TEST"
  const NoWarnings: string := "-w"
  const MockPrefix: string := "mock_"
  const CMockHeader: string := "cmock.h"
  const RunnerSuffix: string := "_Runner.c"

  /** The compiler section as the run uses it: `TEST`, then the command-line
      defines, appended to the define items (nil counting as none), and
      `-w` appended to the options in the minimal output style. */
  function RunCompiler(c: Compiler, defines: seq<string>, style: seq<string>): (r: Compiler)
    ensures r.defineItems.Some?
    ensures |r.defineItems.value| == |c.defineItems.GetOr([])| + 1 + |defines|
    ensures r.defineItems.value[..|c.defineItems.GetOr([])|] == c.defineItems.GetOr([])
    ensures r.defineItems.value[|c.defineItems.GetOr([])|] == Str(TestDefine)
    ensures forall i :: 0 <= i < |defines| ==>
      r.defineItems.value[|c.defineItems.GetOr([])| + 1 + i] == Str(defines[i])
    ensures |r.options| == |c.options| + (if MinimalStyle(style) then 1 else 0)
    ensures r.options[..|c.options|] == c.options
    ensures MinimalStyle(style) ==> r.options[|c.options|] == Str(NoWarnings)
    ensures r.(defineItems := c.defineItems, options := c.options) == c
  {
    c.(defineItems := Some(c.defineItems.GetOr([]) + [Str(TestDefine)] + Strs(defines)),
       options := c.options + (if MinimalStyle(style) then [Str(NoWarnings)] else []))
  }

  /** The `-D` words the run's compile commands carry: those configured,
      then `TEST`, then one per command-line define. */
  lemma RunDefineWords(c: Compiler, defines: seq<string>, style: seq<string>)
    ensures ItemWords(c.definePrefix, RunCompiler(c, defines, style).defineItems.value)
      == ItemWords(c.definePrefix, c.defineItems.GetOr([])) + [c.definePrefix + TestDefine]
         + Prefixes(c.definePrefix, defines)
  {
    var given := c.defineItems.GetOr([]);
    assert RunCompiler(c, defines, style).defineItems.value == given + [Str(TestDefine)] + Strs(defines);
    DefineItemWords(c.definePrefix, given, defines);
  }

  lemma DefineItemWords(p: string, given: seq<Item>, defines: seq<string>)
    ensures ItemWords(p, given + [Str(TestDefine)] + Strs(defines))
      == ItemWords(p, given) + [p + TestDefine] + Prefixes(p, defines)
  {
    ItemWordsAppend(p, given + [Str(TestDefine)], Strs(defines));
    ItemWordsAppend(p, given, [Str(TestDefine)]);
    assert ItemWords(p, [Str(TestDefine)]) == [p + TestDefine];
    assert ItemWords(p, Strs(defines)) == Prefixes(p, defines);
  }

  /** A define passed to `parse_and_run_tests` as `DEFINES=-DA -DB ...` reaches
      the compiler's define items, after `TEST`. */
  lemma CommandLineDefinesReachCompiler(c: Compiler, names: seq<string>, style: seq<string>)
    requires forall i :: 0 <= i < |names| ==> !HasSpace(names[i])
    ensures var args := [DefinesKey + SpaceJoin(DefineFlags(names))];
      RunCompiler(c, FindInArgsCorrected(args, Defines), style).defineItems.value
        == c.defineItems.GetOr([]) + [Str(TestDefine)] + Strs(names)
  {
    var payload := SpaceJoin(DefineFlags(names));
    var args := [DefinesKey + payload];
    assert args[0][..|DefinesKey|] == DefinesKey;
    assert args[0][|DefinesKey|..] == payload;
    assert ArgPayload(args, DefinesKey) == Some(payload);
    ExtractDefinesRoundTrip(names);
  }

  /** `gsub(pat, '')` with a literal pattern: the occurrences found scanning
      left to right, without overlap, removed. */
  function RemoveAll(s: string, pat: string): (r: string)
    requires pat != []
    ensures |r| <= |s|
    decreases |s|
  {
    if |s| < |pat| then s
    else if s[..|pat|] == pat then RemoveAll(s[|pat|..], pat)
    else [s[0]] + RemoveAll(s[1..], pat)
  }

  /** Text without the pattern is left as it is. */
  lemma {:induction false} RemoveAllAbsent(s: string, pat: string)
    requires pat != [] && !Contains(s, pat)
    ensures RemoveAll(s, pat) == s
    decreases |s|
  {
    if |s| >= |pat| {
      assert !OccursAt(s, pat, 0);
      forall i | 0 <= i <= |s[1..]| - |pat|
        ensures !OccursAt(s[1..], pat, i)
      {
        assert s[1..][i..i + |pat|] == s[i + 1..i + 1 + |pat|];
        assert !OccursAt(s, pat, i + 1);
      }
      RemoveAllAbsent(s[1..], pat);
      assert [s[0]] + s[1..] == s;
    }
  }

  /** The header a mock is made from: `mock_<name>` gives back `<name>`. */
  lemma MockNameOf(h: string)
    requires !Contains(h, MockPrefix)
    ensures RemoveAll(MockPrefix + h, MockPrefix) == h
  {
    var s := MockPrefix + h;
    assert s[..|MockPrefix|] == MockPrefix;
    assert s[|MockPrefix|..] == h;
    RemoveAllAbsent(h, MockPrefix);
  }

  /** What the mock loop does for one header: a header whose name holds
      `mock_` asks CMock for a mock of the header found under the name
      without `mock_` (nil when no include dir has it). */
  function MockRequest(header: string, dirs: seq<string>, files: set<string>): (r: seq<Option<string>>)
    ensures |r| <= 1
    ensures r != [] <==> Contains(header, MockPrefix)
  {
    if Contains(header, MockPrefix) then [FindFile(RemoveAll(header, MockPrefix), dirs, files)] else []
  }

  /** The headers handed to CMock for a header list, in its order. */
  function MockRequests(headers: seq<string>, dirs: seq<string>, files: set<string>): (r: seq<Option<string>>)
    ensures |r| <= |headers|
  {
    ConcatMapAtMostOne(headers, h => MockRequest(h, dirs, files));
    ConcatMap(headers, h => MockRequest(h, dirs, files))
  }

  /** `mock_<name>.h` asks for a mock of `<name>.h` as found in the dirs. */
  lemma MockOfHeader(h: string, dirs: seq<string>, files: set<string>)
    requires !Contains(h, MockPrefix)
    ensures MockRequest(MockPrefix + h, dirs, files) == [FindFile(h, dirs, files)]
  {
    assert OccursAt(MockPrefix + h, MockPrefix, 0);
    MockNameOf(h);
  }

  /** A header list without `mock_` names asks for no mocks. */
  lemma {:induction false} NoMockHeadersNoMocks(headers: seq<string>, dirs: seq<string>, files: set<string>)
    requires forall i :: 0 <= i < |headers| ==> !Contains(headers[i], MockPrefix)
    ensures MockRequests(headers, dirs, files) == []
  {
    if headers != [] {
      NoMockHeadersNoMocks(headers[1..], dirs, files);
    }
  }

  /** `cmock.h` is never mocked itself: its name holds `mock.`, not `mock_`. */
  lemma CMockNotMocked()
    ensures !Contains(CMockHeader, MockPrefix)
  {
    forall i | 0 <= i <= |CMockHeader| - |MockPrefix|
      ensures !OccursAt(CMockHeader, MockPrefix, i)
    {
      assert CMockHeader[i..i + |MockPrefix|][4] != MockPrefix[4];
    }
  }

  /** The header list of a test: its own headers, then `cmock.h`. */
  function HeaderList(lines: seq<Line>): seq<string> {
    ExtractHeaders(lines) + [CMockHeader]
  }

  /** Adding `cmock.h` to the list asks for no further mock. */
  lemma MocksOfHeaderList(lines: seq<Line>, dirs: seq<string>, files: set<string>)
    ensures MockRequests(HeaderList(lines), dirs, files) == MockRequests(ExtractHeaders(lines), dirs, files)
  {
    var f := h => MockRequest(h, dirs, files);
    ConcatMapAppend(ExtractHeaders(lines), [CMockHeader], f);
    CMockNotMocked();
    assert ConcatMap([CMockHeader], f) == [];
  }

  /** The source found for one header, if any. */
  function HeaderSource(header: string, dirs: seq<string>, files: set<string>): (r: seq<string>)
    ensures |r| <= 1
    ensures r != [] <==> FindSourceFile(header, dirs, files).Some?
  {
    match FindSourceFile(header, dirs, files)
    case None => []
    case Some(src) => [src]
  }

  /** The sources compiled for a header list, in its order. */
  function HeaderSources(headers: seq<string>, dirs: seq<string>, files: set<string>): (r: seq<string>)
    ensures |r| <= |headers|
  {
    ConcatMapAtMostOne(headers, h => HeaderSource(h, dirs, files));
    ConcatMap(headers, h => HeaderSource(h, dirs, files))
  }

  /** The header sources follow header order: those of two runs of headers
      are the first's then the second's. */
  lemma HeaderSourcesAppend(a: seq<string>, b: seq<string>, dirs: seq<string>, files: set<string>)
    ensures HeaderSources(a + b, dirs, files) == HeaderSources(a, dirs, files) + HeaderSources(b, dirs, files)
  {
    ConcatMapAppend(a, b, h => HeaderSource(h, dirs, files));
  }

  /** A compile of the header loop: the source found for header `h`, with
      no extra options. */
  predicate HeaderCompile(x: Compile, h: string, dirs: seq<string>, files: set<string>) {
    x.extra == [] && FindSourceFile(h, dirs, files) == Some(x.source)
  }

  /** Every source compiled for a header list was found for one of its
      headers. */
  lemma HeaderSourceOf(headers: seq<string>, dirs: seq<string>, files: set<string>, src: string)
    requires src in HeaderSources(headers, dirs, files)
    ensures exists h :: h in headers && FindSourceFile(h, dirs, files) == Some(src)
  {
    var f := h => HeaderSource(h, dirs, files);
    ConcatMapFrom(headers, f, src);
    var h :| h in headers && src in f(h);
    assert FindSourceFile(h, dirs, files) == Some(src);
  }

  /** Every source compiled for a header list is `<dir><base>.c` for some
      header `<base>.h` of the list and some include dir. */
  lemma HeaderSourcesFound(headers: seq<string>, dirs: seq<string>, files: set<string>, src: string)
    requires src in HeaderSources(headers, dirs, files)
    ensures src in files
    ensures exists h, i :: h in headers && 0 <= i < |dirs| && src == dirs[i] + SourceName(h)
  {
    var f := h => HeaderSource(h, dirs, files);
    ConcatMapFrom(headers, f, src);
    var h :| h in headers && src in f(h);
    HeaderSourceFound(h, dirs, files, src);
  }

  /** The source found for one header is `<dir><base>.c` for an include dir. */
  lemma HeaderSourceFound(h: string, dirs: seq<string>, files: set<string>, src: string)
    requires src in HeaderSource(h, dirs, files)
    ensures src in files
    ensures exists i :: 0 <= i < |dirs| && src == dirs[i] + SourceName(h)
  {
    var i :| FirstFound(SourceName(h), dirs, files, i) && src == dirs[i] + SourceName(h);
  }

  /** One entry of the `libs` section: its source files and the options
      added when compiling them; either may be nil. */
  datatype LibGroup = LibGroup(files: Option<seq<string>>, extraOptions: Option<seq<Item>>)

  /** A `compile` call: the source and the options added to the configured
      ones. */
  datatype Compile = Compile(source: string, extra: seq<Item>)

  /** Why the build of a test stops with an exception. */
  datatype PlanError =
    | Marker(scan: ScanError)       // a `@BUILD_LIB` marker ends its line
    | UnknownLib(lib: string)       // `libs[lib]` is nil
    | NoLibFiles(lib: string)       // the group's `files` is nil
    | NoExtraOptions(lib: string)   // `options + nil` while compiling the group's first file

  /** The error a library id raises, if any, in the order the source meets
      them. */
  function LibError(groups: map<string, LibGroup>, lib: string): (r: Option<PlanError>)
    ensures r.None? <==> (lib in groups && groups[lib].files.Some?
      && (groups[lib].files.value == [] || groups[lib].extraOptions.Some?))
  {
    if lib !in groups then Some(UnknownLib(lib))
    else if groups[lib].files.None? then Some(NoLibFiles(lib))
    else if groups[lib].files.value != [] && groups[lib].extraOptions.None? then Some(NoExtraOptions(lib))
    else None
  }

  /** The compiles of one group's files, each with the group's options. */
  function GroupCompiles(files: seq<string>, extra: seq<Item>): (r: seq<Compile>)
    ensures |r| == |files|
    ensures forall i :: 0 <= i < |files| ==> r[i] == Compile(files[i], extra)
  {
    if files == [] then [] else [Compile(files[0], extra)] + GroupCompiles(files[1..], extra)
  }

  /** `i` is the first library id that raises. */
  ghost predicate FirstBadLib(libs: seq<string>, groups: map<string, LibGroup>, i: int) {
    && 0 <= i < |libs|
    && LibError(groups, libs[i]).Some?
    && forall j :: 0 <= j < i ==> LibError(groups, libs[j]).None?
  }

  /** `add_lib_source_files`: the compiles of each listed group's files, in
      order; the first id that raises stops the build. */
  function LibCompiles(libs: seq<string>, groups: map<string, LibGroup>): (r: Result<seq<Compile>, PlanError>)
    ensures r.Ok? <==> forall i :: 0 <= i < |libs| ==> LibError(groups, libs[i]).None?
    ensures r.Err? ==> exists i :: FirstBadLib(libs, groups, i) && Some(r.error) == LibError(groups, libs[i])
  {
    if libs == [] then Ok([])
    else match LibError(groups, libs[0])
      case Some(e) =>
        assert FirstBadLib(libs, groups, 0);
        Err(e)
      case None =>
        var g := groups[libs[0]];
        var rest := LibCompiles(libs[1..], groups);
        assert rest.Err? ==> exists i :: FirstBadLib(libs, groups, i) && Some(rest.error) == LibError(groups, libs[i]) by {
          if rest.Err? {
            var i :| FirstBadLib(libs[1..], groups, i) && Some(rest.error) == LibError(groups, libs[1..][i]);
            assert FirstBadLib(libs, groups, i + 1);
          }
        }
        if rest.Err? then rest
        else Ok(GroupCompiles(g.files.value, g.extraOptions.GetOr([])) + rest.value)
  }

  /** A compile of `add_lib_source_files`: a file of group `lib`, with the
      group's extra options. */
  predicate LibFileCompile(x: Compile, groups: map<string, LibGroup>, lib: string) {
    && lib in groups && groups[lib].files.Some? && x.source in groups[lib].files.value
    && x.extra == groups[lib].extraOptions.GetOr([])
  }

  /** Every library compile is a file of one of the groups named, with that
      group's options. */
  lemma {:induction false} LibCompilesFrom(libs: seq<string>, groups: map<string, LibGroup>, x: Compile)
    requires LibCompiles(libs, groups).Ok? && x in LibCompiles(libs, groups).value
    ensures exists lib :: lib in libs && LibFileCompile(x, groups, lib)
  {
    assert libs != [];
    assert LibError(groups, libs[0]).None?;
    assert LibCompiles(libs[1..], groups).Ok? by {
      assert forall i :: 0 <= i < |libs[1..]| ==> libs[1..][i] == libs[i + 1];
    }
    LibCompilesCons(libs, groups);
    var g := GroupCompiles(groups[libs[0]].files.value, groups[libs[0]].extraOptions.GetOr([]));
    if x in g {
      var k :| 0 <= k < |g| && g[k] == x;
      assert LibFileCompile(x, groups, libs[0]);
    } else {
      assert x in LibCompiles(libs[1..], groups).value;
      LibCompilesFrom(libs[1..], groups, x);
      var lib :| lib in libs[1..] && LibFileCompile(x, groups, lib);
      assert lib in libs;
    }
  }

  /** A usable id in front adds its group's compiles in front. */
  lemma LibCompilesCons(c: seq<string>, groups: map<string, LibGroup>)
    requires c != [] && LibError(groups, c[0]).None? && LibCompiles(c[1..], groups).Ok?
    ensures LibCompiles(c, groups) == Ok(
      GroupCompiles(groups[c[0]].files.value, groups[c[0]].extraOptions.GetOr([])) + LibCompiles(c[1..], groups).value)
  {
  }

  /** One usable id in front of a run of usable ids. */
  lemma LibCompilesConsOf(lib: string, rest: seq<string>, groups: map<string, LibGroup>)
    requires LibError(groups, lib).None? && LibCompiles(rest, groups).Ok?
    ensures LibCompiles([lib] + rest, groups) == Ok(
      GroupCompiles(groups[lib].files.value, groups[lib].extraOptions.GetOr([])) + LibCompiles(rest, groups).value)
  {
    var c := [lib] + rest;
    assert c[0] == lib && c[1..] == rest;
    LibCompilesCons(c, groups);
  }

  /** The compiles of two runs of library ids are those of the first, then
      those of the second. */
  lemma {:induction false} LibCompilesAppend(a: seq<string>, b: seq<string>, groups: map<string, LibGroup>)
    requires LibCompiles(a, groups).Ok? && LibCompiles(b, groups).Ok?
    ensures LibCompiles(a + b, groups) == Ok(LibCompiles(a, groups).value + LibCompiles(b, groups).value)
  {
    if a == [] {
      assert a + b == b;
      assert LibCompiles(a, groups).value == [];
      assert [] + LibCompiles(b, groups).value == LibCompiles(b, groups).value;
    } else {
      var x := a[1..];
      assert a == [a[0]] + x;
      assert LibError(groups, a[0]).None?;
      assert LibCompiles(x, groups).Ok? by {
        assert forall i :: 0 <= i < |x| ==> x[i] == a[i + 1];
      }
      LibCompilesAppend(x, b, groups);
      LibCompilesConsAppend(a[0], x, b, groups);
    }
  }

  /** The step of the induction above: one usable id in front of both sides. */
  lemma LibCompilesConsAppend(lib: string, x: seq<string>, b: seq<string>, groups: map<string, LibGroup>)
    requires LibError(groups, lib).None?
    requires LibCompiles(x, groups).Ok? && LibCompiles(b, groups).Ok?
    requires LibCompiles(x + b, groups) == Ok(LibCompiles(x, groups).value + LibCompiles(b, groups).value)
    ensures LibCompiles([lib] + x + b, groups) == Ok(LibCompiles([lib] + x, groups).value + LibCompiles(b, groups).value)
  {
    var head := GroupCompiles(groups[lib].files.value, groups[lib].extraOptions.GetOr([]));
    LibCompilesConsOf(lib, x, groups);
    LibCompilesConsOf(lib, x + b, groups);
    SeqRegroup([lib], x, b);
    SeqRegroup(head, LibCompiles(x, groups).value, LibCompiles(b, groups).value);
  }

  /** A single usable group compiles each of its files, in order, with its
      extra options (none when nil and the group has no files). */
  lemma OneLibCompiles(lib: string, groups: map<string, LibGroup>)
    requires LibError(groups, lib).None?
    ensures LibCompiles([lib], groups)
      == Ok(GroupCompiles(groups[lib].files.value, groups[lib].extraOptions.GetOr([])))
  {
    assert [lib][1..] == [];
    assert LibCompiles([lib][1..], groups) == Ok([]);
    var head := GroupCompiles(groups[lib].files.value, groups[lib].extraOptions.GetOr([]));
    assert head + [] == head;
  }

  /** The runner source: under the runner path when one is configured,
      otherwise under the build path, where it is generated. */
  function RunnerPath(c: Compiler, base: string): (r: string)
    ensures EndsWith(r, base + RunnerSuffix)
    ensures |r| == |c.runnerPath.GetOr(c.buildPath)| + |base| + |RunnerSuffix|
    ensures c.runnerPath.None? ==> StartsWith(r, c.buildPath)
    ensures c.runnerPath.Some? ==> StartsWith(r, c.runnerPath.value)
  {
    var dir := c.runnerPath.GetOr(c.buildPath);
    var r := dir + (base + RunnerSuffix);
    assert r[..|dir|] == dir;
    assert r[|r| - |base + RunnerSuffix|..] == base + RunnerSuffix;
    r
  }

  /** What the run does for one test file, short of executing anything. */
  datatype Plan = Plan(
    mocks: seq<Option<string>>,   // the headers handed to CMock, in order
    generateRunner: bool,         // the runner is generated before it is compiled
    runner: string,               // the runner source
    compiles: seq<Compile>,       // the `compile` calls, in order
    objects: seq<string>,         // the object list given to the linker
    base: string)                 // the test's base name: executable and result file

  /** The objects the compiles produce, in order. */
  function Objects(c: Compiler, compiles: seq<Compile>): (r: seq<string>)
    ensures |r| == |compiles|
    ensures forall i :: 0 <= i < |compiles| ==> r[i] == CompileCommand(c, compiles[i].source, compiles[i].extra).1
  {
    if compiles == [] then [] else [ObjectName(c, compiles[0].source)] + Objects(c, compiles[1..])
  }

  /** The loop body of `run_tests` for one test file `test`, with `c` the
      run's compiler section, `groups` the `libs` section and `files` the
      files that exist. */
  function PlanTest(c: Compiler, groups: map<string, LibGroup>, test: SourceFile, files: set<string>): (r: Result<Plan, PlanError>)
    ensures ReadLibAnnotations(test.lines).Err? ==> r == Err(Marker(ReadLibAnnotations(test.lines).error))
    ensures ReadLibAnnotations(test.lines).Ok? ==>
      (r.Ok? <==> LibCompiles(ReadLibAnnotations(test.lines).value, groups).Ok?)
    ensures r.Ok? ==>
      var p := r.value;
      && p.base == BaseName(test.path)
      && p.generateRunner == c.runnerPath.None?
      && p.runner == RunnerPath(c, p.base)
      && p.mocks == MockRequests(ExtractHeaders(test.lines), LocalIncludeDirs(c.includes.items), files)
      && |p.compiles| >= 2
      && p.compiles[|p.compiles| - 2] == Compile(p.runner, [])
      && p.compiles[|p.compiles| - 1] == Compile(test.path, [])
      && p.objects == Objects(c, p.compiles)
  {
    var dirs := LocalIncludeDirs(c.includes.items);
    var headers := HeaderList(test.lines);
    MocksOfHeaderList(test.lines, dirs, files);
    match ReadLibAnnotations(test.lines)
    case Err(e) => Err(Marker(e))
    case Ok(libs) =>
      match LibCompiles(libs, groups)
      case Err(e) => Err(e)
      case Ok(libCompiles) =>
        var base := BaseName(test.path);
        var runner := RunnerPath(c, base);
        var compiles := GroupCompiles(HeaderSources(headers, dirs, files), [])
          + libCompiles + [Compile(runner, []), Compile(test.path, [])];
        Ok(Plan(MockRequests(headers, dirs, files), c.runnerPath.None?, runner, compiles, Objects(c, compiles), base))
  }

  /** Unfolds the compiles of a planned test ahead of the runner and the
      test, for the lemmas below. */
  lemma PlanCompiles(c: Compiler, groups: map<string, LibGroup>, test: SourceFile, files: set<string>)
    ensures PlanTest(c, groups, test, files).Ok? ==>
      && ReadLibAnnotations(test.lines).Ok?
      && LibCompiles(ReadLibAnnotations(test.lines).value, groups).Ok?
      && var p := PlanTest(c, groups, test, files).value;
      && p.objects == Objects(c, p.compiles)
      && |p.compiles| >= 2
      && p.compiles[..|p.compiles| - 2]
        == GroupCompiles(HeaderSources(HeaderList(test.lines), LocalIncludeDirs(c.includes.items), files), [])
         + LibCompiles(ReadLibAnnotations(test.lines).value, groups).value
  {
    if PlanTest(c, groups, test, files).Ok? {
      var p := PlanTest(c, groups, test, files).value;
      var pre := GroupCompiles(HeaderSources(HeaderList(test.lines), LocalIncludeDirs(c.includes.items), files), [])
        + LibCompiles(ReadLibAnnotations(test.lines).value, groups).value;
      assert p.compiles == pre + [p.compiles[|p.compiles| - 2], p.compiles[|p.compiles| - 1]];
    }
  }

  /** A compile ahead of the runner and the test has its object linked at
      the same place. */
  lemma CompiledAhead(c: Compiler, p: Plan, pre: seq<Compile>, x: Compile)
    requires p.objects == Objects(c, p.compiles) && |p.compiles| >= 2
    requires p.compiles[..|p.compiles| - 2] == pre && x in pre
    ensures exists i :: 0 <= i < |p.compiles| - 2 && p.compiles[i] == x && p.objects[i] == ObjectName(c, x.source)
  {
    var i :| 0 <= i < |pre| && pre[i] == x;
    assert p.compiles[i] == p.compiles[..|p.compiles| - 2][i];
  }

  /** A file of a group is compiled with the group's extra options. */
  lemma GroupCompilesHas(fs: seq<string>, extra: seq<Item>, f: string)
    requires f in fs
    ensures Compile(f, extra) in GroupCompiles(fs, extra)
  {
    var k :| 0 <= k < |fs| && fs[k] == f;
    assert GroupCompiles(fs, extra)[k] == Compile(f, extra);
  }

  /** Each header of the list whose `.c` file is found in the include dirs
      has that file compiled, without extra options, ahead of the runner,
      and its object in the link at the same place. */
  lemma HeaderSourceLinked(c: Compiler, groups: map<string, LibGroup>, test: SourceFile, files: set<string>,
                           h: string, src: string)
    ensures && PlanTest(c, groups, test, files).Ok? && h in HeaderList(test.lines)
            && FindSourceFile(h, LocalIncludeDirs(c.includes.items), files) == Some(src) ==>
      var p := PlanTest(c, groups, test, files).value;
      exists i :: 0 <= i < |p.compiles| - 2 && p.compiles[i] == Compile(src, []) && p.objects[i] == ObjectName(c, src)
  {
    if PlanTest(c, groups, test, files).Ok? && h in HeaderList(test.lines)
       && FindSourceFile(h, LocalIncludeDirs(c.includes.items), files) == Some(src) {
      HeaderSourceLinkedOk(c, groups, test, files, h, src);
    }
  }

  /** The step above, for a planned test and a found header source. */
  lemma HeaderSourceLinkedOk(c: Compiler, groups: map<string, LibGroup>, test: SourceFile, files: set<string>,
                             h: string, src: string)
    requires PlanTest(c, groups, test, files).Ok?
    requires h in HeaderList(test.lines)
    requires FindSourceFile(h, LocalIncludeDirs(c.includes.items), files) == Some(src)
    ensures var p := PlanTest(c, groups, test, files).value;
      exists i :: 0 <= i < |p.compiles| - 2 && p.compiles[i] == Compile(src, []) && p.objects[i] == ObjectName(c, src)
  {
    var p := PlanTest(c, groups, test, files).value;
    var dirs := LocalIncludeDirs(c.includes.items);
    var hs := HeaderSources(HeaderList(test.lines), dirs, files);
    PlanCompiles(c, groups, test, files);
    var lc := LibCompiles(ReadLibAnnotations(test.lines).value, groups).value;
    assert Compile(src, []) in GroupCompiles(hs, []) + lc by {
      var f := h => HeaderSource(h, dirs, files);
      assert src in f(h);
      ConcatMapTo(HeaderList(test.lines), f, h, src);
      GroupCompilesHas(hs, [], src);
    }
    CompiledAhead(c, p, GroupCompiles(hs, []) + lc, Compile(src, []));
  }

  /** Each file of each library group a test names is compiled with the
      group's extra options, ahead of the runner, and its object is in the
      link at the same place. */
  lemma LibFileLinked(c: Compiler, groups: map<string, LibGroup>, test: SourceFile, files: set<string>,
                      lib: string, f: string)
    ensures && PlanTest(c, groups, test, files).Ok?
            && ReadLibAnnotations(test.lines).Ok? && lib in ReadLibAnnotations(test.lines).value
            && lib in groups && groups[lib].files.Some? && f in groups[lib].files.value ==>
      var p := PlanTest(c, groups, test, files).value;
      exists i :: 0 <= i < |p.compiles| - 2
        && p.compiles[i] == Compile(f, groups[lib].extraOptions.GetOr([])) && p.objects[i] == ObjectName(c, f)
  {
    if && PlanTest(c, groups, test, files).Ok?
       && ReadLibAnnotations(test.lines).Ok? && lib in ReadLibAnnotations(test.lines).value
       && lib in groups && groups[lib].files.Some? && f in groups[lib].files.value {
      LibFileLinkedOk(c, groups, test, files, lib, f);
    }
  }

  /** The step above, for a planned test and a file of a group it names. */
  lemma LibFileLinkedOk(c: Compiler, groups: map<string, LibGroup>, test: SourceFile, files: set<string>,
                        lib: string, f: string)
    requires PlanTest(c, groups, test, files).Ok?
    requires ReadLibAnnotations(test.lines).Ok? && lib in ReadLibAnnotations(test.lines).value
    requires lib in groups && groups[lib].files.Some? && f in groups[lib].files.value
    ensures var p := PlanTest(c, groups, test, files).value;
      exists i :: 0 <= i < |p.compiles| - 2
        && p.compiles[i] == Compile(f, groups[lib].extraOptions.GetOr([])) && p.objects[i] == ObjectName(c, f)
  {
    var p := PlanTest(c, groups, test, files).value;
    var hc := GroupCompiles(HeaderSources(HeaderList(test.lines), LocalIncludeDirs(c.includes.items), files), []);
    PlanCompiles(c, groups, test, files);
    var lc := LibCompiles(ReadLibAnnotations(test.lines).value, groups).value;
    var want := Compile(f, groups[lib].extraOptions.GetOr([]));
    assert want in hc + lc by {
      LibCompilesHas(ReadLibAnnotations(test.lines).value, groups, lib, f);
    }
    CompiledAhead(c, p, hc + lc, want);
  }

  /** What the header loop and `add_lib_source_files` may compile for a
      test: a header source found for a listed header, or a file of a
      library group the test names. */
  predicate CompiledForTest(x: Compile, headers: seq<string>, dirs: seq<string>, files: set<string>,
                            libs: seq<string>, groups: map<string, LibGroup>) {
    || (exists h :: h in headers && HeaderCompile(x, h, dirs, files))
    || (exists lib :: lib in libs && LibFileCompile(x, groups, lib))
  }

  /** Ahead of the runner and the test a planned test compiles exactly the
      header sources found and the files of the library groups it names. */
  lemma PlanCompilesExactly(c: Compiler, groups: map<string, LibGroup>, test: SourceFile, files: set<string>)
    ensures PlanTest(c, groups, test, files).Ok? ==>
      && ReadLibAnnotations(test.lines).Ok?
      && var p := PlanTest(c, groups, test, files).value;
      forall x :: x in p.compiles[..|p.compiles| - 2] <==>
        CompiledForTest(x, HeaderList(test.lines), LocalIncludeDirs(c.includes.items), files,
                        ReadLibAnnotations(test.lines).value, groups)
  {
    if PlanTest(c, groups, test, files).Ok? {
      var p := PlanTest(c, groups, test, files).value;
      forall x
        ensures x in p.compiles[..|p.compiles| - 2] <==>
          CompiledForTest(x, HeaderList(test.lines), LocalIncludeDirs(c.includes.items), files,
                          ReadLibAnnotations(test.lines).value, groups)
      {
        if x in p.compiles[..|p.compiles| - 2] {
          CompiledAheadFrom(c, groups, test, files, x);
        } else if CompiledForTest(x, HeaderList(test.lines), LocalIncludeDirs(c.includes.items), files,
                                  ReadLibAnnotations(test.lines).value, groups) {
          CompiledAheadTo(c, groups, test, files, x);
        }
      }
    }
  }

  /** The direction "only these": every compile ahead of the runner comes
      from the header loop or from a named library group. */
  lemma CompiledAheadFrom(c: Compiler, groups: map<string, LibGroup>, test: SourceFile, files: set<string>, x: Compile)
    requires PlanTest(c, groups, test, files).Ok?
    requires x in PlanTest(c, groups, test, files).value.compiles[..|PlanTest(c, groups, test, files).value.compiles| - 2]
    ensures ReadLibAnnotations(test.lines).Ok?
    ensures CompiledForTest(x, HeaderList(test.lines), LocalIncludeDirs(c.includes.items), files,
                            ReadLibAnnotations(test.lines).value, groups)
  {
    var dirs := LocalIncludeDirs(c.includes.items);
    var hs := HeaderSources(HeaderList(test.lines), dirs, files);
    var libs := ReadLibAnnotations(test.lines).value;
    PlanCompiles(c, groups, test, files);
    var g := GroupCompiles(hs, []);
    var lc := LibCompiles(libs, groups).value;
    assert x in g + lc;
    if x in g {
      var k :| 0 <= k < |g| && g[k] == x;
      HeaderSourceOf(HeaderList(test.lines), dirs, files, hs[k]);
      var h :| h in HeaderList(test.lines) && FindSourceFile(h, dirs, files) == Some(hs[k]);
      assert HeaderCompile(x, h, dirs, files);
    } else {
      LibCompilesFrom(libs, groups, x);
    }
  }

  /** The direction "all of these": every header source found and every
      file of a named group is compiled ahead of the runner. */
  lemma CompiledAheadTo(c: Compiler, groups: map<string, LibGroup>, test: SourceFile, files: set<string>, x: Compile)
    requires PlanTest(c, groups, test, files).Ok?
    requires ReadLibAnnotations(test.lines).Ok?
    requires CompiledForTest(x, HeaderList(test.lines), LocalIncludeDirs(c.includes.items), files,
                             ReadLibAnnotations(test.lines).value, groups)
    ensures x in PlanTest(c, groups, test, files).value.compiles[..|PlanTest(c, groups, test, files).value.compiles| - 2]
  {
    var cs := PlanTest(c, groups, test, files).value.compiles;
    var dirs := LocalIncludeDirs(c.includes.items);
    var libs := ReadLibAnnotations(test.lines).value;
    if exists h :: h in HeaderList(test.lines) && HeaderCompile(x, h, dirs, files) {
      var h :| h in HeaderList(test.lines) && HeaderCompile(x, h, dirs, files);
      assert exists i :: 0 <= i < |cs| - 2 && cs[i] == x by {
        HeaderSourceLinkedOk(c, groups, test, files, h, x.source);
      }
    } else {
      var lib :| lib in libs && LibFileCompile(x, groups, lib);
      assert exists i :: 0 <= i < |cs| - 2 && cs[i] == x by {
        LibFileLinkedOk(c, groups, test, files, lib, x.source);
      }
    }
    var i :| 0 <= i < |cs| - 2 && cs[i] == x;
    InFront(cs, 2, i);
  }

  /** An element before the last `n` is in the prefix without them. */
  lemma InFront<T>(xs: seq<T>, n: nat, i: nat)
    requires i + n < |xs|
    ensures xs[i] in xs[..|xs| - n]
  {
    assert xs[..|xs| - n][i] == xs[i];
  }

  /** The library compiles hold every file of every group named. */
  lemma {:induction false} LibCompilesHas(libs: seq<string>, groups: map<string, LibGroup>, lib: string, f: string)
    requires LibCompiles(libs, groups).Ok? && lib in libs
    requires lib in groups && groups[lib].files.Some? && f in groups[lib].files.value
    ensures Compile(f, groups[lib].extraOptions.GetOr([])) in LibCompiles(libs, groups).value
  {
    assert LibError(groups, libs[0]).None?;
    assert LibCompiles(libs[1..], groups).Ok? by {
      assert forall i :: 0 <= i < |libs[1..]| ==> libs[1..][i] == libs[i + 1];
    }
    LibCompilesCons(libs, groups);
    if libs[0] == lib {
      GroupCompilesHas(groups[lib].files.value, groups[lib].extraOptions.GetOr([]), f);
    } else {
      LibCompilesHas(libs[1..], groups, lib, f);
    }
  }

  /** A test with no `@BUILD_LIB` line and no header that has a `.c` file
      beside it links exactly the runner's object and its own. */
  lemma PlainTestLinksTwoObjects(c: Compiler, groups: map<string, LibGroup>, test: SourceFile, files: set<string>)
    requires forall i :: 0 <= i < |test.lines| ==> MarkerOnLine(test.lines[i], LibMarker).Absent?
    requires HeaderSources(HeaderList(test.lines), LocalIncludeDirs(c.includes.items), files) == []
    ensures PlanTest(c, groups, test, files).Ok?
    ensures PlanTest(c, groups, test, files).value.objects
      == [ObjectName(c, RunnerPath(c, BaseName(test.path))), ObjectName(c, test.path)]
  {
    var runner := RunnerPath(c, BaseName(test.path));
    var compiles := [Compile(runner, []), Compile(test.path, [])];
    assert PlanTest(c, groups, test, files).Ok? && PlanTest(c, groups, test, files).value.compiles == compiles by {
      NoLibLines(test.lines);
      assert LibCompiles([], groups) == Ok([]);
      assert GroupCompiles([], []) + [] + compiles == compiles;
    }
    TwoObjects(c, runner, test.path);
  }

  lemma TwoObjects(c: Compiler, a: string, b: string)
    ensures Objects(c, [Compile(a, []), Compile(b, [])]) == [ObjectName(c, a), ObjectName(c, b)]
  {
    var cs := [Compile(a, []), Compile(b, [])];
    assert cs[1..] == [Compile(b, [])] && cs[1..][1..] == [];
  }

  /** Lines without a `@BUILD_LIB` marker name no libraries. */
  lemma {:induction false} NoLibLines(lines: seq<Line>)
    requires forall i :: 0 <= i < |lines| ==> MarkerOnLine(lines[i], LibMarker).Absent?
    ensures ReadLibAnnotations(lines) == Ok([])
  {
    if lines != [] {
      NoLibLines(lines[1..]);
    }
  }

  /** The paths of some source files, in order. */
  function PathsOf(fs: seq<SourceFile>): (r: seq<string>)
    ensures |r| == |fs|
    ensures forall i :: 0 <= i < |fs| ==> r[i] == fs[i].path
  {
    if fs == [] then [] else [fs[0].path] + PathsOf(fs[1..])
  }

  /** `parse_and_run_tests` as evidently intended: the test files named by
      `FILES=`, or else the discovered ones the defines do not rule out. */
  function SelectTests(args: seq<string>, discovered: seq<SourceFile>): (r: Result<seq<string>, ScanError>)
    ensures FindInArgsCorrected(args, Files) != [] ==> r == Ok(FindInArgsCorrected(args, Files))
    ensures FindInArgsCorrected(args, Files) == [] ==>
      (r.Ok? <==> ExcludeTestFiles(discovered, FindInArgsCorrected(args, Defines)).Ok?)
    ensures FindInArgsCorrected(args, Files) == [] && r.Ok? ==>
      forall p :: p in r.value <==>
        exists f :: f in discovered && f.path == p && Kept(f, FindInArgsCorrected(args, Defines))
  {
    var named := FindInArgsCorrected(args, Files);
    if named != [] then Ok(named)
    else
      var defines := FindInArgsCorrected(args, Defines);
      match ExcludeTestFiles(discovered, defines)
      case Err(e) => Err(e)
      case Ok(kept) =>
        PathsOfMembers(kept);
        Ok(PathsOf(kept))
  }

  /** A path is listed exactly when one of the files has it. */
  lemma PathsOfMembers(fs: seq<SourceFile>)
    ensures forall p :: p in PathsOf(fs) <==> exists f :: f in fs && f.path == p
  {
    forall p | p in PathsOf(fs)
      ensures exists f :: f in fs && f.path == p
    {
      var i :| 0 <= i < |fs| && PathsOf(fs)[i] == p;
      assert fs[i] in fs;
    }
  }

  /** `parse_and_run_tests` as written: the lookups hand back the whole
      argument list when their key is missing. */
  function SelectTestsAsWritten(args: seq<string>, discovered: seq<SourceFile>): (r: Result<seq<string>, ScanError>)
    ensures FindInArgs(args, Files) != [] ==> r == Ok(FindInArgs(args, Files))
    ensures FindInArgs(args, Files) == [] ==>
      (r.Ok? <==> ExcludeTestFiles(discovered, FindInArgs(args, Defines)).Ok?)
    ensures FindInArgs(args, Files) == [] && r.Ok? ==>
      forall p :: p in r.value <==>
        exists f :: f in discovered && f.path == p && Kept(f, FindInArgs(args, Defines))
  {
    var named := FindInArgs(args, Files);
    if named != [] then Ok(named)
    else
      match ExcludeTestFiles(discovered, FindInArgs(args, Defines))
      case Err(e) => Err(e)
      case Ok(kept) =>
        PathsOfMembers(kept);
        Ok(PathsOf(kept))
  }

  /** As written, `parse_and_run_tests(["DEFINES=-DX"])` selects the one
      "test" `DEFINES=-DX` and skips discovery, so the run goes on to read a
      test file of that name (and stops if there is none); as intended, only
      discovered tests are selected. */
  lemma DefinesArgTakenForTest(discovered: seq<SourceFile>)
    ensures SelectTestsAsWritten(["DEFINES=-DX"], discovered) == Ok(["DEFINES=-DX"])
    ensures SelectTests(["DEFINES=-DX"], discovered).Ok? ==>
      forall p :: p in SelectTests(["DEFINES=-DX"], discovered).value ==>
        exists f :: f in discovered && f.path == p
  {
    FallThroughTakesArgsAsFiles();
    assert "DEFINES=-DX"[..6][0] != FilesKey[0];
    assert ArgPayload(["DEFINES=-DX"], FilesKey).None?;
  }

  /** The `FILES=` lookup of a list whose first argument carrying the key
      names some test files gives those files, whatever follows. */
  lemma NamedLookup(names: seq<string>, later: seq<string>)
    requires forall i :: 0 <= i < |names| ==> IsToken(names[i])
    ensures FindInArgsCorrected([FilesKey + SpaceJoin(names)] + later, Files) == names
  {
    FilesLookup(SpaceJoin(names), later);
    TokensOfSpaceJoin(names);
  }

  /** The `FILES=` lookup of a list led by `FILES=` + `p` splits `p`. */
  lemma FilesLookup(p: string, later: seq<string>)
    ensures FindInArgsCorrected([FilesKey + p] + later, Files) == Tokens(p)
  {
    PayloadOfKeyed(FilesKey, p, later);
    CorrectedReadsPayload([FilesKey + p] + later, Files, p);
  }

  /** The payload of a list led by `key + p` is `p`. */
  lemma PayloadOfKeyed(key: string, p: string, later: seq<string>)
    ensures ArgPayload([key + p] + later, key) == Some(p)
  {
    var arg := key + p;
    assert arg[..|key|] == key;
    assert arg[|key|..] == p;
    assert ([arg] + later)[0] == arg;
  }

  /** Test files named by `FILES=` are run as given, and nothing is
      discovered. */
  lemma NamedTestsWin(names: seq<string>, later: seq<string>, discovered: seq<SourceFile>)
    requires names != [] && forall i :: 0 <= i < |names| ==> IsToken(names[i])
    ensures SelectTests([FilesKey + SpaceJoin(names)] + later, discovered) == Ok(names)
  {
    NamedLookup(names, later);
  }
}

=== FILE: text.dfy ===
/**
  Character and string helpers shared by the recognisers: Ruby's notion of
  whitespace, substring tests, and `String#split(' ')`, which the marker
  scanners and the argument parser use to cut a line into tokens.
 */
module Text {
  import opened Wrappers

  /** One line of a source file as `File.readlines` yields it, without its
      terminating newline; no line carries an embedded newline. */
  type Line = s: string | '\n' !in s

  /** The characters Ruby's `\s` and `split(' ')` treat as whitespace. */
  predicate IsSpace(c: char) {
    c == ' ' || c == '\t' || c == '\n' || c == '\U{000B}' || c == '\U{000C}' || c == '\r'
  }

  predicate HasSpace(s: string) {
    exists i :: 0 <= i < |s| && IsSpace(s[i])
  }

  predicate StartsWith(s: string, p: string) {
    |p| <= |s| && s[..|p|] == p
  }

  predicate EndsWith(s: string, p: string) {
    |p| <= |s| && s[|s| - |p|..] == p
  }

  /** Ruby's `s.include?(t)` on strings: `t` occurs somewhere in `s`. */
  predicate Contains(s: string, t: string) {
    exists i | 0 <= i <= |s| - |t| :: OccursAt(s, t, i)
  }

  /** `t` occurs in `s` starting at position `i`. */
  predicate OccursAt(s: string, t: string, i: int) {
    0 <= i && i + |t| <= |s| && s[i..i + |t|] == t
  }

  /** A token as `split(' ')` produces it: non-empty and free of whitespace. */
  predicate IsToken(t: string) {
    |t| > 0 && !HasSpace(t)
  }

  /** The length of the run of non-whitespace characters starting at `i`. */
  function WordRun(s: string, i: nat): (n: nat)
    requires i <= |s|
    ensures i + n <= |s|
    ensures forall j :: i <= j < i + n ==> !IsSpace(s[j])
    ensures i + n == |s| || IsSpace(s[i + n])
    decreases |s| - i
  {
    if i == |s| || IsSpace(s[i]) then 0 else 1 + WordRun(s, i + 1)
  }

  /** The length of the run of whitespace characters starting at `i`. */
  function SpaceRun(s: string, i: nat): (n: nat)
    requires i <= |s|
    ensures i + n <= |s|
    ensures forall j :: i <= j < i + n ==> IsSpace(s[j])
    ensures i + n == |s| || !IsSpace(s[i + n])
    decreases |s| - i
  {
    if i == |s| || !IsSpace(s[i]) then 0 else 1 + SpaceRun(s, i + 1)
  }

  /** Ruby's `s.split(' ')`: the maximal runs of non-whitespace characters,
      in order; leading, trailing and repeated whitespace yield nothing. */
  function Tokens(s: string): (r: seq<string>)
    ensures forall k :: 0 <= k < |r| ==> IsToken(r[k])
    ensures |r| <= |s|
    decreases |s|
  {
    if |s| == 0 then []
    else if IsSpace(s[0]) then Tokens(s[1..])
    else
      var n := WordRun(s, 0);
      [s[..n]] + Tokens(s[n..])
  }

  /** Every token is written out with one space in front of it. */
  function SpaceJoin(ts: seq<string>): string {
    if ts == [] then "" else " " + ts[0] + SpaceJoin(ts[1..])
  }

  /** Ruby's `Array#index`: the position of the first element equal to `x`. */
  function IndexOf(ts: seq<string>, x: string): (r: Option<nat>)
    ensures r.Some? ==> r.value < |ts| && ts[r.value] == x
    ensures r.Some? ==> forall j :: 0 <= j < r.value ==> ts[j] != x
    ensures r.None? <==> x !in ts
  {
    if ts == [] then None
    else if ts[0] == x then Some(0)
    else match IndexOf(ts[1..], x)
      case None => None
      case Some(i) => Some(i + 1)
  }

  /** The run of non-whitespace characters starting at `i` ends at `m` when
      `s[i..m]` has no whitespace and `m` is the end or a whitespace. */
  lemma {:induction false} WordRunEndsAt(s: string, i: nat, m: nat)
    requires i <= m <= |s|
    requires forall j :: i <= j < m ==> !IsSpace(s[j])
    requires m == |s| || IsSpace(s[m])
    ensures WordRun(s, i) == m - i
    decreases m - i
  {
    if i < m {
      WordRunEndsAt(s, i + 1, m);
    }
  }

  /** The run of non-whitespace characters of `w + rest` stops exactly at the
      end of `w` when `rest` is empty or starts with whitespace. */
  lemma WordRunOfToken(w: string, rest: string)
    requires IsToken(w)
    requires rest == [] || IsSpace(rest[0])
    ensures WordRun(w + rest, 0) == |w|
  {
    var s := w + rest;
    assert forall j :: 0 <= j < |w| ==> s[j] == w[j];
    WordRunEndsAt(s, 0, |w|);
  }

  /** Splitting a token followed by a whitespace-led remainder yields the
      token, then the tokens of the remainder. */
  lemma TokensOfTokenThen(w: string, rest: string)
    requires IsToken(w)
    requires rest == [] || IsSpace(rest[0])
    ensures Tokens(w + rest) == [w] + Tokens(rest)
  {
    var s := w + rest;
    WordRunOfToken(w, rest);
    assert !IsSpace(w[0]);
    assert s[..|w|] == w;
    assert s[|w|..] == rest;
  }

  /** `split(' ')` undoes `SpaceJoin`: a list of tokens written out with
      separating spaces reads back as the same list. */
  lemma {:induction false} TokensOfSpaceJoin(ts: seq<string>)
    requires forall k :: 0 <= k < |ts| ==> IsToken(ts[k])
    ensures Tokens(SpaceJoin(ts)) == ts
  {
    if ts != [] {
      var rest := SpaceJoin(ts[1..]);
      TokensOfSpaceJoin(ts[1..]);
      assert Tokens(SpaceJoin(ts)) == [ts[0]] + Tokens(rest) by {
        assert rest == [] || rest[0] == ' ';
        TokensOfBlankToken(ts[0], rest);
      }
    }
  }

  /** A token with a space in front and blank-led text after it. */
  lemma TokensOfBlankToken(w: string, rest: string)
    requires IsToken(w)
    requires rest == [] || IsSpace(rest[0])
    ensures Tokens(" " + w + rest) == [w] + Tokens(rest)
  {
    var s := " " + w + rest;
    assert s[1..] == w + rest && IsSpace(s[0]);
    TokensSkipSpace(s);
    TokensOfTokenThen(w, rest);
  }

  lemma TokensSkipSpace(s: string)
    requires |s| > 0 && IsSpace(s[0])
    ensures Tokens(s) == Tokens(s[1..])
  {
  }

  /** Tokens written out with separating spaces make a single line. */
  lemma {:induction false} SpaceJoinIsLine(ts: seq<string>)
    requires forall k :: 0 <= k < |ts| ==> IsToken(ts[k])
    ensures '\n' !in SpaceJoin(ts)
  {
    if ts != [] {
      SpaceJoinIsLine(ts[1..]);
    }
  }

  /** Every token of a string occurs in it as a substring. */
  lemma {:induction false} TokenOccursInString(s: string, t: string)
    requires t in Tokens(s)
    ensures Contains(s, t)
    decreases |s|
  {
    assert |s| > 0;
    if IsSpace(s[0]) {
      TokenOccursInString(s[1..], t);
      var i :| 0 <= i <= |s[1..]| - |t| && OccursAt(s[1..], t, i);
      assert s[i + 1..i + 1 + |t|] == s[1..][i..i + |t|];
      assert OccursAt(s, t, i + 1);
    } else {
      var n := WordRun(s, 0);
      if t == s[..n] {
        assert OccursAt(s, t, 0);
      } else {
        TokenOccursInString(s[n..], t);
        var i :| 0 <= i <= |s[n..]| - |t| && OccursAt(s[n..], t, i);
        assert s[i + n..i + n + |t|] == s[n..][i..i + |t|];
        assert OccursAt(s, t, i + n);
      }
    }
  }

  /** The concatenation of `f(x)` over the elements `x` of `xs`, in order. */
  function ConcatMap<T, U>(xs: seq<T>, f: T -> seq<U>): seq<U> {
    if xs == [] then [] else f(xs[0]) + ConcatMap(xs[1..], f)
  }

  lemma {:induction false} ConcatMapAppend<T, U>(xs: seq<T>, ys: seq<T>, f: T -> seq<U>)
    ensures ConcatMap(xs + ys, f) == ConcatMap(xs, f) + ConcatMap(ys, f)
  {
    if xs == [] {
      assert xs + ys == ys;
    } else {
      assert (xs + ys)[1..] == xs[1..] + ys;
      ConcatMapAppend(xs[1..], ys, f);
    }
  }

  /** When each element contributes at most one item, there are at most as
      many items as elements. */
  lemma {:induction false} ConcatMapAtMostOne<T, U>(xs: seq<T>, f: T -> seq<U>)
    requires forall x :: x in xs ==> |f(x)| <= 1
    ensures |ConcatMap(xs, f)| <= |xs|
  {
    if xs != [] {
      ConcatMapAtMostOne(xs[1..], f);
    }
  }

  /** Every item of the concatenation comes from some element. */
  lemma {:induction false} ConcatMapFrom<T, U>(xs: seq<T>, f: T -> seq<U>, y: U)
    requires y in ConcatMap(xs, f)
    ensures exists x :: x in xs && y in f(x)
  {
    if y !in f(xs[0]) {
      ConcatMapFrom(xs[1..], f, y);
      var x :| x in xs[1..] && y in f(x);
      assert x in xs;
    }
  }

  /** Every item an element contributes is in the concatenation. */
  lemma {:induction false} ConcatMapTo<T, U>(xs: seq<T>, f: T -> seq<U>, x: T, y: U)
    requires x in xs && y in f(x)
    ensures y in ConcatMap(xs, f)
  {
    if x != xs[0] {
      ConcatMapTo(xs[1..], f, x, y);
    }
  }

  /** Concatenation regrouped to the left. */
  lemma SeqRegroup<T>(h: seq<T>, x: seq<T>, y: seq<T>)
    ensures h + (x + y) == h + x + y
  {
  }
}

=== FILE: wrappers.dfy ===
/** Option and Result values used where the Ruby code returns nil or raises. */
module Wrappers {

  /** A value that may be absent: Ruby's `nil` return. */
  datatype Option<+T> = None | Some(value: T) {

    /** The encapsulated value, or `default` when there is none. */
    function GetOr(default: T): T {
      match this
      case Some(v) => v
      case None => default
    }
  }

  /** Either a value or the error the Ruby code would raise instead. */
  datatype Result<+T, +E> = Ok(value: T) | Err(error: E) {

    predicate IsFailure() {
      Err?
    }

    function PropagateFailure<U>(): Result<U, E>
      requires Err?
    {
      Err(error)
    }

    function Extract(): T
      requires Ok?
    {
      value
    }
  }
}
